=== FILE: README.md ===
# A.R.T.I.S.T. session core, modelled in Dafny

This project models the core of `artist.py`, the program behind an art
installation. A visitor presses a button and speaks a phrase, or the
installation "daydreams" a phrase of its own when nobody has spoken for a
while. The phrase is moderated and turned into an image. A poet persona
writes several candidate verses about it, and a critic persona picks one.
The verse is laid out next to the image, and the result is saved and
spoken about.

The model is split into modules that follow the program:

- `Chat`: the `ChatCharacter` transcript, a class whose `messages` field
  the methods update.
- `Verse`: `get_best_verse`. The poet rounds, the critic message and the
  verdict's digit scan are modelled as a method proved against the pure
  function `Arbitrate` and the transcript functions `PoetTranscript` and
  `CriticTranscript`.
- `Speech`: the `speak_text` cache. The cache directory is a map in a
  class, and a pure `Speak`/`SpeakAll` specification counts syntheses.
- `Events`, `Naming`, `Moderation`: `check_for_event`,
  `get_random_string` and `check_moderation` as pure functions.
- `Layout`: the verse layout arithmetic inside `main`:
  - splitting and stripping the lines;
  - finding the longest line;
  - shrinking the font;
  - total height and line positions;
  - placing the image.
- `Throttle`: how one poll changes the daydream counter and the next
  trigger time, and what that implies for runs of polls.
- `SessionSpec`: one poll of `main`'s loop as a pure function
  `Poll(state, world, config)`. It returns the outcome, the new loop state
  and the ordered list of calls made to the outside: speech, recording,
  transcription, the three chat personas, moderation, the image service
  and the files written.
- `Session`: the loop itself as a class. Its fields are the loop variables
  of `main`, the three personas and the speech cache. Its `Step` method is
  proved to do exactly what `Poll` describes, to keep the cache agreeing
  with its request history, and to leave each persona's transcript as the
  arbitration functions say.

Everything outside the program is an input. The `World` value of one poll
holds:

- the clock readings;
- the event queue and the joystick state;
- the random draws: phrases, the delay, the name letters, the verse pick
  and the image side;
- the recorder's attempts;
- the transcription service, as a function;
- the answers of the chat, moderation and image services.

The speech service is a function of the text. The font metrics are
functions of (size, text).

Some consequences of the code that are easy to miss:

- A failed creation never redraws the trigger time, on daydream cycles
  as well (artist.py:754-783). `SessionSpec.FailedCreationKeepsTimer`
  and `SessionSpec.FailedTimerCycleRecurs` state the result: every later
  poll is a daydream again until the counter passes the ceiling.
- Daydream cycles are not silent. A daydream whose creation fails speaks
  the failure phrase (artist.py:761-768 and 776-783).
- The speech cache key is not unique per (voice, text) pair, because the
  parts are concatenated without separators (artist.py:187). See
  `Speech.CacheKeyNotInjective`.

## Model

| member | source | states |
|---|---|---|
| Chat.ChatCharacter.constructor | artist.py:113-118 | the transcript is exactly one system turn holding the given prompt, which is remembered as the original prompt |
| Chat.ChatCharacter.Reset | artist.py:117-118 | the transcript becomes exactly one system turn with the original prompt, whatever the prompt setter did before |
| Chat.ChatCharacter.SetSystemPrompt | artist.py:124-129 | only turn 0 changes, to a system turn with the new text; it fails, with the transcript unchanged, exactly when turn 0 is not a system turn, which a valid transcript rules out; the original prompt is untouched, so a later Reset restores it |
| Chat.ChatCharacter.GetChatResponse | artist.py:131-140 | appends the user turn and then the service's reply turn and returns the reply's text; when the service raises, only the user turn stays appended and the error propagates; a transcript that opens with its system turn keeps it |
| Chat.Exchanges | artist.py:293-302 | asking one message once per reply leaves two turns per reply |
| Chat.ExchangesAt | artist.py:293-302 | in those turns, turn 2i is the asked message and turn 2i+1 is the i-th reply |
| Chat.ExchangesSnoc | artist.py:293-302 | one more answered request appends exactly the user turn and its reply |
| Verse.Decimal | artist.py:307 | the poem number as rendered in the critic message: at least one character, all of them decimal digits |
| Verse.DecimalRoundTrip | artist.py:307 | reading the rendered number back gives the number |
| Verse.DecimalStartsWithLeading | artist.py:307 | the rendered number starts with its most significant digit |
| Verse.DigitIndex | artist.py:318-322 | the position of the first digit in the verdict: no digit before it, a digit at it, or the verdict's length when it holds none |
| Verse.FirstDigit | artist.py:318-322 | the value of the verdict's first digit: the character at the first digit's position, read as 0 to 9; none exactly when the verdict holds no digit |
| Verse.DigitIndexSkipsPrefix | artist.py:318-322 | a prefix without digits only shifts the first digit's position by its length |
| Verse.FirstDigitSkipsPrefix | artist.py:318-322 | a prefix without digits does not change the first digit |
| Verse.PyIndex | artist.py:329 | Python list indexing: it succeeds exactly for -n <= i < n, with negative indices counting from the end, and raises IndexError otherwise |
| Verse.Choose | artist.py:328-334 | for a first digit d in 1..n the result is candidate d; d = 0 gives the last candidate; d > n or no candidates raise IndexError; no digit gives the randomly picked candidate; any result is one of the candidates |
| Verse.VerdictTwelvePicksFirst | artist.py:318-329 | only the first digit counts: the verdict "12" picks the first candidate |
| Verse.PoemLinesAppend | artist.py:306-307 | one more candidate appends exactly its numbered line |
| Verse.PoemLinesSplit | artist.py:306-307 | the numbered lines of a list are those of its two parts, with the second part numbered on from the first |
| Verse.PoemLinesFrom | artist.py:306-307 | the lines from candidate i on start with candidate i's own line |
| Verse.CriticMessageListsEach | artist.py:304-307 | the critic message shows every candidate i as "Poem i+1: ..." after the theme line and all earlier candidates |
| Verse.BuildCriticMessage | artist.py:304-307 | the accumulating loop yields exactly the theme line followed by every numbered candidate |
| Verse.EchoedLabelSelects | artist.py:307-329 | a verdict that repeats the label "Poem i" selects candidate i when i is a single digit, and the candidate named by i's leading digit otherwise |
| Verse.LeadingAtMost | artist.py:318-320 | the leading digit of a number is at most the number |
| Verse.FirstUnavailable | artist.py:293-300 | the first poet request that raised: every earlier one was answered |
| Verse.Replies | artist.py:293-302 | one reply turn per answered poet request |
| Verse.RepliesAt | artist.py:293-302 | reply i is the message of poet answer i |
| Verse.Contents | artist.py:296-302 | one candidate text per reply turn |
| Verse.ContentsAt | artist.py:296-302 | candidate i is the text of reply i |
| Verse.Arbitrate | artist.py:274-334 | the arbiter fails with the poet's error exactly when a poet request raised, and with the critic's error exactly when every poet request was answered and the critic raised; a chosen verse is the text of one of the poet's answers |
| Verse.PoetTranscriptShape | artist.py:288-302 | after an arbitration the poet's transcript is the system turn, then for each answered request the poet message and the answer, plus the unanswered message when a request raised; with every request answered it holds 1 + 2·n turns |
| Verse.TranscriptsOpenWithSystem | artist.py:288-314 | after an arbitration both transcripts still open with their system turn, and the critic's transcript goes beyond it exactly when every poet request was answered |
| Verse.FirstUnavailableAt | artist.py:293-300 | a run of answered requests ended by a failed one (or by the end) locates the first failure |
| Verse.AnsweredRound | artist.py:293-302 | one more answered request grows the replies, the candidate texts and the poet's transcript by exactly that answer |
| Verse.AskPoet | artist.py:291-302 | asks the same poet message once per expected candidate on one growing transcript and stops at the first request that raises; the candidates are the answers' texts in order, and the transcript grows by the exchanges, plus the unanswered message on failure |
| Verse.GetBestVerse | artist.py:274-334 | resets both personas, asks the poet n times and the critic once; its result is the arbiter's, and both transcripts end exactly as PoetTranscript and CriticTranscript say |
| Verse.CriticMessage | artist.py:304-307 | the critic message opens with the theme line, and is only that line when there are no candidates |
| Verse.PoetMessage | artist.py:296 | the poet request: the verse base prompt, a space, and the theme |
| Verse.CriticHeader | artist.py:304 | the critic message's first line: "Theme: ", the theme and a newline |
| Verse.PoemLine | artist.py:307 | one candidate's line: "Poem ", its 1-based number in decimal, ": ", the candidate and a newline |
| Verse.PoemLines | artist.py:306-307 | the candidates' lines in order, numbered on from the given number; its properties are stated by PoemLinesAppend, PoemLinesSplit and PoemLinesFrom |
| Verse.PoetTranscript | artist.py:288-302 | the poet's transcript after an arbitration opens with its system turn, and holds 1 + 2·n turns when all n requests were answered |
| Verse.CriticTranscript | artist.py:288-326 | the critic's transcript after an arbitration opens with its system turn |
| Speech.CacheKeyNotInjective | artist.py:187 | two different voice/text pairs share one cache key |
| Speech.CacheKey | artist.py:187 | the key is the language, gender, voice name and text run together: its length is the sum of theirs, it starts with the language and ends with the text |
| Speech.Speak | artist.py:187-207 | after one speak the key is cached and the cached audio is what plays; it synthesizes exactly when the key was missing, and then the new audio is stored under the key and is what plays; the other entries are unchanged, and a hit changes nothing |
| Speech.SpeakTwice | artist.py:195-207 | speaking the same key again synthesizes nothing and plays the same audio |
| Speech.SpeakAllSnoc | artist.py:179-207 | a run of speak requests extended by one request is that run followed by one Speak |
| Speech.KeysCons | artist.py:187 | the keys of a run of requests are the first key plus the keys of the rest |
| Speech.NewKeysCons | artist.py:195-203 | counting the uncached keys one key at a time |
| Speech.SpeakAllKeeps | artist.py:195-203 | after a run of requests the directory holds the old entries unchanged plus one entry per requested key |
| Speech.SynthesisOncePerKey | artist.py:195-207 | over any run of requests, synthesis happens exactly once per distinct key that was not already cached |
| Speech.SynthesisBound | artist.py:195-207 | syntheses never exceed the number of distinct keys requested |
| Speech.SpeakAll | artist.py:195-207 | after a run of speak requests the directory keeps every old key, and there are at most as many syntheses as requests |
| Speech.SynthesesGrow | artist.py:195-207 | speaking more requests never lowers the synthesis count |
| Speech.SpeechCache.constructor | artist.py:179-186 | the cache starts with the voice and the existing files, no syntheses and nothing played |
| Speech.SpeechCache.SpeakText | artist.py:179-207 | the directory and the synthesis count change as Speak says, and the audio stored under the key is appended to what was played |
| Events.CheckForEvent | artist.py:210-237 | none exactly when no queued event is relevant; otherwise the meaning of the first relevant event |
| Events.Classify | artist.py:221-235 | only a key press, or a button press while a joystick is connected, can mean something; a key press means something exactly when it is Escape, space or d; a button that is none of the three configured ones means nothing |
| Events.CheckForEventAppend | artist.py:220-237 | a queue is decided by its first part unless that part holds nothing relevant |
| Events.QuitNeedsEscapeOrHold | artist.py:221-230 | an event means Quit exactly when it is Escape, or the shutdown press while a joystick is connected and its hold button is down |
| Events.ShutdownPressFallsThrough | artist.py:227-235 | without the hold button, the shutdown press falls through to the generate and daydream checks |
| Naming.Letter | artist.py:246-247 | each random choice gives a lower-case letter |
| Naming.RandomString | artist.py:240-247 | the name has one lower-case letter per random choice |
| Naming.Picks | artist.py:240-247 | every lower-case string has a sequence of valid choices of its length |
| Naming.RandomStringBijective | artist.py:240-247 | every lower-case string of the right length is a possible name, produced by exactly one sequence of choices |
| Moderation.CheckModeration | artist.py:250-271 | allowed exactly when the service does not flag the message, refused exactly when it does, and an error exactly when the request raises |
| Layout.Split | artist.py:666 | splitting at newlines gives one more part than there are newlines, none of them holding a newline |
| Layout.JoinSplit | artist.py:666 | joining the parts with newlines gives back the verse |
| Layout.SplitPrefix | artist.py:666 | text without a newline in front of a string joins that string's first part |
| Layout.SplitJoin | artist.py:666 | splitting the join of newline-free parts gives back the parts |
| Layout.LeadingSpaces | artist.py:668 | the whitespace prefix is as long as possible |
| Layout.TrailingSpaces | artist.py:668 | the whitespace suffix is as long as possible |
| Layout.Strip | artist.py:668 | the result is a slice of the line with only whitespace cut on either side, and it neither starts nor ends with whitespace |
| Layout.Lines | artist.py:666-668 | a verse has one line per newline plus one |
| Layout.LinesAreStrippedParts | artist.py:666-668 | line k is the k-th newline-separated part with its surrounding whitespace stripped |
| Layout.StripAll | artist.py:668 | each part is stripped, in order |
| Layout.LongestLine | artist.py:672-680 | the first line of greatest positive width: at least as wide as every line and strictly wider than every earlier one; none exactly when no line has a positive width |
| Layout.FitFontSize | artist.py:682-693 | the largest size stepping down by 2 from the configured one at which the line is narrower than the column: it fits, and every larger step did not |
| Layout.TotalHeight | artist.py:695-703 | the sum of the line heights plus the spacing between consecutive lines |
| Layout.TruncDiv | artist.py:705 | Python's int(a / b) for a positive divisor: the remainder a - q·b is less than b in size and has the sign of a, so the quotient is rounded toward zero |
| Layout.LineTops | artist.py:705-726 | one position per line: the offset starts at minus half the total and grows by total/count for each line |
| Layout.HalfShift | artist.py:724 | halving the height after adding twice an offset keeps the offset whole; the half is exact on an even height and at most one more on an odd one |
| Layout.LinesAroundCentre | artist.py:705-726 | the lines are evenly spaced by total/count, the first starts half the total above the centre, and the last ends at most half the total below it; exactly so on an even display height, and at most one lower on an odd one |
| Layout.Place | artist.py:711-716 | either side: the first column starts at the left margin, one margin separates image and verse, and the second column ends at the right margin (the column width is set at line 448) |
| Layout.Compose | artist.py:666-726 | the longest line is this verse's widest visible line, or the earlier one when no line is visible; the layout fails exactly when there is neither; a scene is arranged around that line |
| Layout.Arrange | artist.py:682-726 | the scene keeps the lines, fits the font to the longest line, places image and column, and stacks the lines around the centre |
| Throttle.Polled | artist.py:519-520 | once the trigger time has come, the poll reads Daydream whatever the queue held, Quit and Next included |
| Throttle.Counted | artist.py:526-535 | Next sets the counter to 0, Daydream adds one |
| Throttle.After | artist.py:519-546 | a poll without a cycle changes nothing; a throttled poll redraws the trigger time; a cycle redraws it only when its creation succeeds (also lines 751-753) |
| Throttle.DaydreamBudget | artist.py:526-546 | without a Next event, the counter never goes down and at most ceiling minus counter cycles run, however the creations end |
| Throttle.CeilingHolds | artist.py:539-546 | once over the ceiling, no cycle runs and the counter stays over until a Next event |
| Throttle.FailedTimerCycleRepeats | artist.py:519-520 | a timer-triggered cycle that fails leaves the trigger time as it was, so every later poll is a daydream again (also lines 751-783) |
| Throttle.FailingDaydreamsReachCeiling | artist.py:519-546 | after the timer expired, a run of failing cycles is ceiling minus counter daydreams, then one throttled poll that finally redraws the timer (also lines 754-783) |
| SessionSpec.FirstVoiced | artist.py:584-592 | the recording attempts before the first one with voice, at most ten: all of them silent, and the next one voiced if there is one (also lines 786-787) |
| SessionSpec.VoicedFrom | artist.py:584-592 | the same count taken from a given attempt on (also lines 786-787) |
| SessionSpec.Records | artist.py:586-588 | one recording call per attempt |
| SessionSpec.ArtistPrompt | artist.py:620-627 | the daydream request: the artist base prompt, a space and the previous phrase, or "something completely random." when there is none |
| SessionSpec.ImagePrompt | artist.py:638 | the image prompt: the image base prompt followed directly by the phrase |
| SessionSpec.Greeting | artist.py:558-562 | the greeting: the drawn welcome word, a space and the drawn welcome line |
| SessionSpec.Poll | artist.py:508-796 | one poll of the loop in closed form: outcome, new loop state and ordered calls; PollEnds, PollCases, PollStops, CycleProceeds, CycleThrottled and the gating lemmas state its outcomes |
| SessionSpec.Dream | artist.py:612-629 | a daydream cycle in closed form: the artist request, then Create from its answer or the artist crash; stated by DreamEnds, DreamCases and DreamGated |
| SessionSpec.Converse | artist.py:547-611 | a voice cycle in closed form: greeting, recordings, then Silence or the working phrase and transcription; stated by ConverseEnds, ConverseCases and ConverseGated |
| SessionSpec.Attend | artist.py:593-611 | after a voiced attempt, in closed form: the working phrase, transcription, then Create from the text or the transcription crash; stated by AttendEnds, AttendHeard and AttendUnheard |
| SessionSpec.Create | artist.py:631-783 | a creation in closed form: text file, moderation, image request, then Finish or the failure phrase; stated by CreateEnds, CreateGated, CreateOutcomes and CreateSpeaks |
| SessionSpec.Finish | artist.py:654-753 | after the image, in closed form: verse, layout, the finished phrase on voice cycles and the two files, or a crash; stated by FinishEnds, FinishCreated, FinishVerseFailed and FinishLayoutFailed |
| SessionSpec.PollEnds | artist.py:508-796 | a poll reads nothing exactly when no relevant event arrived before the trigger time, and shuts down exactly when it read Quit; a throttled poll calls nothing |
| SessionSpec.DreamEnds | artist.py:612-629 | a daydream creates, fails its creation, or crashes, and crashes with the artist's error exactly when the artist request raises |
| SessionSpec.ConverseEnds | artist.py:547-611 | a voice cycle ends in silence exactly when all ten attempts are silent, and otherwise creates, fails its creation or crashes, never with the artist's error (also lines 784-796) |
| SessionSpec.AttendEnds | artist.py:593-611 | after a voiced attempt: a crash with the transcription error exactly when transcription raises, otherwise the creation's outcome |
| SessionSpec.CreateEnds | artist.py:631-783 | a creation crashes on moderation exactly when the moderation request raises, and fails exactly when the prompt is flagged or the image request raises; it never crashes with the artist's or the transcriber's error |
| SessionSpec.FinishEnds | artist.py:654-753 | after the image: the creation is saved exactly when a verse is chosen and either an earlier longest line is bound or the verse has a visible line; otherwise it crashes on the verse or the layout, with no call and the state unchanged |
| SessionSpec.PollStops | artist.py:509-525 | a poll that reads nothing or Quit changes nothing, calls nothing, and neither daydreams nor consults the poet and the critic |
| SessionSpec.CycleProceeds | artist.py:526-582 | a counted poll within the ceiling runs the daydream or the voice cycle its event names, and it consults the poet and the critic exactly when that cycle has a phrase and the image arrives |
| SessionSpec.CycleThrottled | artist.py:539-546 | a counted poll over the ceiling calls nothing and only counts and redraws the trigger time |
| SessionSpec.CreateKeepsControl | artist.py:631-783 | a creation leaves the counter, the phrase and the mode alone, and redraws the trigger time exactly when it succeeds |
| SessionSpec.PollFollowsThrottle | artist.py:509-546 | each poll moves the counter and trigger time exactly as Throttle.After says; it is throttled exactly when the throttle says so, and then calls nothing and redraws the trigger time within the configured delay (also lines 751-753) |
| SessionSpec.GatedAfterPrefix | artist.py:547-652 | calls before a creation that involve no image keep its image calls gated |
| SessionSpec.GatedShape | artist.py:635-652 | a creation that reaches the image request asks for the image right after moderation passed the same prompt, which came right after the text file |
| SessionSpec.PollCases | artist.py:509-582 | the ways a poll can go, each in closed form |
| SessionSpec.DreamCases | artist.py:612-629 | a daydream either crashes after its artist request or creates from the artist's answer |
| SessionSpec.DreamUnanswered | artist.py:620-627 | an artist request that raises ends the process after that request |
| SessionSpec.DreamAnswered | artist.py:620-629 | an answered artist request is followed by a creation from the answer |
| SessionSpec.ConverseCases | artist.py:547-611 | a voice cycle ends in silence after ten silent attempts, or crashes at transcription, or creates from the transcribed text (also lines 786-796) |
| SessionSpec.ConverseSilent | artist.py:584-587 | ten silent attempts end the cycle after the greeting and the ten recordings (also lines 786-796) |
| SessionSpec.ConverseStages | artist.py:547-611 | a voice cycle with a voiced attempt is the greeting and the recordings, then the working phrase and transcription |
| SessionSpec.AttendUnheard | artist.py:600-609 | a transcription that raises ends the process after the working phrase and the request |
| SessionSpec.AttendHeard | artist.py:600-611 | a transcription is followed by a creation from its text |
| SessionSpec.CreateModerationError | artist.py:631-640 | a moderation request that raises ends the process after the text file and the request |
| SessionSpec.CreateFlagged | artist.py:640 | a flagged prompt requests no image and is told with the failure phrase (also lines 769-783) |
| SessionSpec.CreateImageless | artist.py:644-652 | an image request that raises is told with the failure phrase (also lines 754-768) |
| SessionSpec.CreateIllustrated | artist.py:644-664 | an image that arrives is followed by the verse request and the rest of the creation |
| SessionSpec.FinishVerseFailed | artist.py:658-664 | an arbiter error ends the process with no further call |
| SessionSpec.FinishLayoutFailed | artist.py:676-688 | a verse with no visible line, and no longest line left from earlier, ends the process with no further call |
| SessionSpec.FinishCreated | artist.py:728-753 | a verse that can be laid out gets the finished phrase on voice cycles, the image file and the screen file, and the trigger time is redrawn |
| SessionSpec.PublishedShape | artist.py:635-749 | the calls of a saved creation are gated, speak only the finished phrase, and end with the two image files |
| SessionSpec.StoppedShape | artist.py:635-664 | the calls of a creation stopped at the verse or the layout are gated and speak nothing |
| SessionSpec.CreatePublished | artist.py:631-753 | a saved creation: the text file first, the image and the screen under the same name last, the finished phrase before them on voice cycles only, and the trigger time redrawn |
| SessionSpec.CreateUnpublished | artist.py:631-688 | a creation whose verse or layout fails crashes after exactly four calls, with the state unchanged |
| SessionSpec.ImageFreeGated | artist.py:631-640 | calls without image requests are trivially gated |
| SessionSpec.CreateGated | artist.py:635-652 | every image request of a creation follows a moderation pass of the same prompt, and every verse or image file follows an image that arrived |
| SessionSpec.DreamGated | artist.py:612-652 | the same for a whole daydream cycle |
| SessionSpec.ConverseGated | artist.py:547-652 | the same for a whole voice cycle |
| SessionSpec.ModerationGatesImage | artist.py:635-652 | moderation gates every image request of every poll |
| SessionSpec.CreateSpeaks | artist.py:728-783 | a creation never records, transcribes or asks the artist; it speaks only the failure phrase when it fails, and only the finished phrase when a voice cycle succeeds |
| SessionSpec.DaydreamsNeitherListenNorTalk | artist.py:586-629 | a daydream poll never records or transcribes, and speaks only the failure phrase of a failed creation (also lines 728-783) |
| SessionSpec.VoiceCycleListensThenTranscribes | artist.py:547-611 | a Next poll resets the counter, greets, and records until an attempt carries voice; it ends in silence exactly when all ten attempts are silent, and otherwise says the working phrase and transcribes (also lines 784-796) |
| SessionSpec.CreateOutcomes | artist.py:631-783 | a creation always writes the text file first; a failed creation speaks the failure phrase last and was refused or got no image; a successful one saved the image and the screen last under the same name |
| SessionSpec.DreamCreation | artist.py:612-629 | a daydream that creates had its artist request answered and creates from the answer |
| SessionSpec.ConverseCreation | artist.py:584-611 | a voice cycle that creates heard a voiced attempt, transcribed it, and creates from the text |
| SessionSpec.PollCreation | artist.py:509-629 | every creation of a poll is a creation run after the cycle's own calls, on the counted state, with the trigger time as it was |
| SessionSpec.FailedCreationKeepsTimer | artist.py:751-783 | a failed creation speaks the failure phrase last, was refused or got no image, and leaves the trigger time as it was |
| SessionSpec.FailedTimerCycleRecurs | artist.py:519-520 | after a failed timer-triggered creation, the counter went up by one and every later poll is a daydream again (also lines 751-783) |
| SessionSpec.CreationSavesArtifacts | artist.py:631-753 | a successful poll writes the text, the image and the screen under one twelve-letter lower-case name, speaks the finished phrase on voice cycles only, and redraws the trigger time within the configured delay |
| SessionSpec.ThrottledUntilNext | artist.py:508-546 | once the counter is over the ceiling, no poll speaks, records, requests or saves anything until a Next event |
| Session.Listen | artist.py:584-592 | the recording loop stops at the first voiced attempt, after at most ten; a daydream records nothing and counts as heard at once (also lines 786-787) |
| Session.SayRequests | artist.py:179-207 | the speak requests of a run of calls: at most one per call, and none for calls that say nothing |
| Session.SayRequestsAppend | artist.py:179-207 | the speak requests of two runs of calls are those of the first followed by those of the second |
| Session.SpokenDuring | artist.py:179-207 | the calls of a poll add exactly their own speak requests, the synthesis count never falls, and it counts the distinct uncached keys |
| Session.Session.constructor | artist.py:482-506 | three fresh personas on their system prompts, the counter at 0, an empty phrase, no longest line, a trigger time one random delay ahead, and an empty call history |
| Session.Session.SpeakPhrase | artist.py:179-207 | speaks through the cache: one Say call, the cache still agrees with the request history, and the cached audio is played |
| Session.Session.Log | artist.py:631-753 | records calls that speak nothing: the trace grows by exactly those calls and the cache still agrees with it |
| Session.Session.Step | artist.py:508-796 | one poll: outcome, new loop state and calls exactly as Poll says; the speak requests grow by one per Say call of the poll, in order, and the synthesis count never falls and is the number of distinct uncached keys requested so far; the loop goes on unless it shut down or crashed; the artist's transcript grows by the daydream request and answer exactly on daydreams; the poet's and critic's transcripts are those of one arbitration exactly when one took place |
| Session.Session.Dispatch | artist.py:508-582 | reads the event queue, then stops or counts and runs the cycle: outcome, state and calls as Poll says, with the transcripts as for Step |
| Session.Session.Halt | artist.py:519-525 | a poll without an event goes on, and Quit stops the loop; nothing else changes |
| Session.Session.ReadStatus | artist.py:510-520 | the status is the queue's first relevant event, turned into Daydream once the trigger time has come |
| Session.Session.Advance | artist.py:526-582 | counts the event, then holds back over the ceiling or runs the cycle, as Poll says; the loop goes on unless the cycle crashed |
| Session.Session.Count | artist.py:526-535 | Next clears the counter, Daydream adds one, and either way a new cycle is due |
| Session.Session.Cycle | artist.py:547-582 | runs the daydream or the voice cycle the mode names, as Dream or Converse says; the loop goes on unless it crashed |
| Session.Session.DaydreamCycle | artist.py:579-629 | a daydream records nothing and asks the artist, as Dream says |
| Session.Session.AskArtist | artist.py:612-629 | the artist turns the previous phrase into a new one, or "something completely random" when there is none; its transcript grows by the request and the answer; then the creation runs |
| Session.Session.CreateFrom | artist.py:609-631 | takes the phrase as the new message and runs the creation from it, as Create says, after the calls already made this poll |
| Session.Session.VoiceCycle | artist.py:547-611 | greets, records until voice or ten silent attempts, then transcribes and creates, as Converse says (also lines 786-796) |
| Session.Session.Respond | artist.py:586-611 | records up to the voiced attempt, then transcribes and creates, as Attend says |
| Session.Session.TranscribeAndCreate | artist.py:592-611 | says the working phrase, transcribes the voiced attempt and creates from the text, as Attend says |
| Session.Session.RunCreation | artist.py:631-652 | the text file, then moderation, then the rest of the creation, as Create says |
| Session.Session.Illustrate | artist.py:638-664 | after moderation's verdict: the image and the verse, or the failure phrase (also lines 754-783) |
| Session.Session.Exhibit | artist.py:644-753 | with the prompt let through and the image arrived: the verse request and then Finish, as Create says; both transcripts are those of the arbitration |
| Session.Session.Decline | artist.py:754-783 | a creation without an image ends with the failure phrase |
| Session.Session.Publish | artist.py:654-753 | verse, layout, the finished phrase on voice cycles, and the two image files, as Finish says; both transcripts are those of the arbitration |
| Session.Session.WriteVerse | artist.py:654-726 | the verse is the arbiter's; laying it out fails exactly when no line is visible and no longest line is left from an earlier cycle; the scene holds the verse's lines |
| Session.Session.LayOut | artist.py:666-726 | lays the verse out around the remembered longest line: this verse's widest visible line, one of its lines, when it has one, and otherwise the line kept from an earlier cycle; it fails exactly when neither exists |
| Session.Session.Save | artist.py:728-753 | the finished phrase on voice cycles only, then the image file and the screen file, and the trigger time redrawn |

## Left out

- The display: pygame, status screens, blitting and screenshots as pixels (artist.py:143-177, 337-363). The saved screen is recorded as a `WriteScene` call carrying the verse's lines. Fonts and positions appear in the `Scene` value, not in the call.
- Audio capture and playback. The recorder is a list of attempts, each with samples and a voice flag. The player is the list of played audio in the speech cache. WAV framing and the transcriber's temporary file (artist.py:63-96) are not modelled.
- The hashing of the cache key (SHA-256) and the base64 decoding of the image (artist.py:189, 655). The cache is keyed on the concatenated string itself, and the image arrives as bytes.
- File names: each write carries the random base name. The ".txt", ".png", "-verse.png" and ".wav" suffixes and the output directory are not modelled.
- Overwriting an existing output file when two names collide is not modelled.
- The clock and random draws. `time.monotonic()` is an integer reading. Every random draw is an input. `SessionSpec.Admissible` keeps the delay of `random.randint`, the letters of `get_random_string` and the verse pick within their ranges. The phrases drawn with `random.choice` (the welcome word and line, the working, finished and failed lines) are free strings.
- `random.choice` on an empty phrase list raises IndexError (artist.py:548-549, 594, 728, 761). The model always has a phrase, so this error is not modelled.
- Floating point: `int(total_height / 2)` and `int(total_height / len(verse_lines))` are modelled as integer division truncated toward zero. `display_height / 2 + offset` is truncated in the same way.
- Errors raised inside exception handlers. At artist.py:92 and artist.py:259 the handler logs `response` before it is bound, so the error raised differs from the original. Both are an uncaught error in the model, and the outcome is the same: the process ends.
- Service failures are modelled where the source lets them propagate:
  - chat;
  - transcription;
  - moderation;
  - the image request, which the source catches.

  A failing speech synthesis service is not modelled: the synthesis function is total.
- `str.isdigit` is modelled on the ASCII digits '0' to '9'. Other Unicode digits are not modelled.
- Logging, the environment variables and `config.json` loading (artist.py:366-447). Only `max_verse_width` (artist.py:448) and the persona set-up (artist.py:481-506) are modelled.
- The inner polling loop (artist.py:509-535) repeats until an event arrives. The model's poll is a single pass, which returns `NoEvent` when it read nothing.
- `ChatResponse` and its token count (artist.py:99-109): a completion is modelled by the reply turn it carries.
- `silent_loops` starts at 0 in the session model. The source binds it only when the first cycle starts, and nothing reads it before then.
- Layout.FitFontSize: requires that every font size at or below a floor makes the line fit the column. Without that, the source's shrink loop (artist.py:685-693) never ends. `Session.Session.Valid` carries the same assumption as `Layout.Shrinks`.
- Session.Session.Step: states the speak requests, the cache directory and the synthesis count, but not the list of played audio. `Session.Session.SpeakPhrase` states what each speak plays.
- Session.Session.WriteVerse: states the scene's lines, not its font size and positions. `Session.Session.LayOut` states the whole arrangement.
- Verse.Arbitrate: its contract states the error cases and that a chosen verse is one of the poet's answers. Which answer is chosen is stated by `Verse.Choose`.

=== FILE: chat.dfy ===
/**
 * A chat persona: a fixed system instruction and the ordered list of turns
 * sent to the completion service.  The completion call itself is an oracle:
 * each call is handed the service's answer as a parameter.
 */
module Chat {
  import opened Wrappers

  datatype Role = System | User | Assistant

  /** One entry of the transcript: a role and its text. */
  datatype Turn = Turn(role: Role, content: string)

  /** The service's answer to one request: the message it returns, or a raised error. */
  datatype Completion = Answered(message: Turn) | Unavailable

  datatype ChatError = CompletionFailed

  /** The turns left behind by asking `message` once per reply, in order. */
  function Exchanges(message: string, replies: seq<Turn>): (ts: seq<Turn>)
    ensures |ts| == 2 * |replies|
  {
    if replies == [] then []
    else
      var n := |replies| - 1;
      var prev := Exchanges(message, replies[..n]);
      prev + [Turn(User, message), replies[n]]
  }

  /** Each reply is preceded by the asked message: turn 2i is the question, turn 2i+1 the i-th reply. */
  lemma {:induction false} ExchangesAt(message: string, replies: seq<Turn>)
    ensures forall i :: 0 <= i < |replies| ==> Exchanges(message, replies)[2 * i] == Turn(User, message)
    ensures forall i :: 0 <= i < |replies| ==> Exchanges(message, replies)[2 * i + 1] == replies[i]
  {
    if replies != [] {
      var n := |replies| - 1;
      ExchangesAt(message, replies[..n]);
      assert forall i :: 0 <= i < n ==> replies[..n][i] == replies[i];
    }
  }

  lemma ExchangesSnoc(message: string, replies: seq<Turn>, reply: Turn)
    ensures Exchanges(message, replies + [reply]) == Exchanges(message, replies) + [Turn(User, message), reply]
  {
    assert (replies + [reply])[..|replies|] == replies;
  }

  class ChatCharacter {
    /** The instruction given at construction; nothing ever reassigns it. */
    const systemPrompt: string
    /** The transcript sent with every request. */
    var messages: seq<Turn>

    /** The first turn is always the system turn. */
    ghost predicate Valid()
      reads this
    {
      |messages| >= 1 && messages[0].role == System
    }

    constructor (prompt: string)
      ensures systemPrompt == prompt
      ensures messages == [Turn(System, prompt)]
      ensures Valid()
    {
      systemPrompt := prompt;
      messages := [Turn(System, prompt)];
    }

    /** Truncates the transcript to the single system turn holding the original prompt. */
    method Reset()
      modifies this
      ensures messages == [Turn(System, systemPrompt)]
      ensures Valid()
    {
      messages := [Turn(System, systemPrompt)];
    }

    /**
     * The prompt setter: rewrites the content of the first turn only; it fails
     * (a RuntimeError in the source) when that turn is not a system turn, which
     * never happens in a valid transcript.  `systemPrompt` is untouched, so a
     * later Reset restores the original prompt.
     */
    method SetSystemPrompt(prompt: string) returns (ok: bool)
      modifies this
      ensures ok == (|old(messages)| >= 1 && old(messages)[0].role == System)
      ensures ok ==> messages == old(messages)[0 := Turn(System, prompt)]
      ensures !ok ==> messages == old(messages)
      ensures old(Valid()) ==> ok && Valid()
    {
      if |messages| >= 1 && messages[0].role == System {
        messages := messages[0 := Turn(System, prompt)];
        ok := true;
      } else {
        ok := false;
      }
    }

    /**
     * Appends the user turn, asks the service, and appends its answer.  When
     * the service raises, the user turn stays appended and the error propagates.
     */
    method GetChatResponse(message: string, completion: Completion) returns (r: Result<string, ChatError>)
      modifies this
      ensures completion.Answered? ==>
        messages == old(messages) + [Turn(User, message), completion.message] &&
        r == Success(completion.message.content)
      ensures completion.Unavailable? ==>
        messages == old(messages) + [Turn(User, message)] && r == Failure(CompletionFailed)
      ensures old(Valid()) ==> Valid()
    {
      messages := messages + [Turn(User, message)];
      match completion
      case Unavailable =>
        r := Failure(CompletionFailed);
      case Answered(reply) =>
        messages := messages + [reply];
        r := Success(reply.content);
    }
  }
}

=== FILE: events.dfy ===
/**
 * Decoding the input queue into the session's discrete events: Escape, Space
 * and 'd' on the keyboard, and the configured joystick buttons, where shutdown
 * needs the hold button to be down while the press button goes down.
 */
module Events {
  import opened Wrappers

  datatype Key = Escape | Space | LetterD | OtherKey

  /** One queued input event; every other event type is ignored. */
  datatype Event = KeyDown(key: Key) | JoyButtonDown(button: int) | OtherEvent

  datatype Status = Quit | Next | Daydream

  datatype Buttons = Buttons(generate: int, daydream: int, shutdownHold: int, shutdownPress: int)

  /** The joystick, if one is connected, with the buttons held down when the queue is read. */
  datatype Joystick = Absent | Present(held: set<int>)

  /** What a single event means on its own, or None when it is not relevant. */
  function Classify(e: Event, js: Joystick, b: Buttons): (r: Option<Status>)
    ensures r.Some? ==> e.KeyDown? || (e.JoyButtonDown? && js.Present?)
    ensures e.KeyDown? ==> (r.Some? <==> e.key != OtherKey)
    ensures e.JoyButtonDown? && e.button !in {b.shutdownPress, b.generate, b.daydream} ==> r.None?
  {
    match e
    case KeyDown(k) =>
      (match k
       case Escape => Some(Quit)
       case Space => Some(Next)
       case LetterD => Some(Daydream)
       case OtherKey => None)
    case JoyButtonDown(button) =>
      if js.Absent? then None
      else if button == b.shutdownPress && b.shutdownHold in js.held then Some(Quit)
      else if button == b.generate then Some(Next)
      else if button == b.daydream then Some(Daydream)
      else None
    case OtherEvent => None
  }

  /** check_for_event: the status of the first relevant event in the queue. */
  function CheckForEvent(queue: seq<Event>, js: Joystick, b: Buttons): (r: Option<Status>)
    ensures r.None? <==> forall i :: 0 <= i < |queue| ==> Classify(queue[i], js, b).None?
    ensures r.Some? ==> exists i :: 0 <= i < |queue| && Classify(queue[i], js, b) == r &&
                                    forall j :: 0 <= j < i ==> Classify(queue[j], js, b).None?
  {
    if queue == [] then None
    else if Classify(queue[0], js, b).Some? then Classify(queue[0], js, b)
    else
      var r := CheckForEvent(queue[1..], js, b);
      assert forall i :: 0 <= i < |queue| - 1 ==> queue[1..][i] == queue[i + 1];
      assert r.Some? ==> exists i :: 1 <= i < |queue| && Classify(queue[i], js, b) == r &&
                                     forall j :: 1 <= j < i ==> Classify(queue[j], js, b).None?;
      r
  }

  /** A queue is decoded by its first part unless that part holds nothing relevant. */
  lemma {:induction false} CheckForEventAppend(a: seq<Event>, c: seq<Event>, js: Joystick, b: Buttons)
    ensures CheckForEvent(a + c, js, b) ==
      if CheckForEvent(a, js, b).Some? then CheckForEvent(a, js, b) else CheckForEvent(c, js, b)
  {
    if a == [] {
      assert a + c == c;
    } else {
      assert (a + c)[0] == a[0];
      assert (a + c)[1..] == a[1..] + c;
      CheckForEventAppend(a[1..], c, js, b);
    }
  }

  /**
   * An event means Quit exactly when it is Escape, or the shutdown press while
   * a joystick is connected and its hold button is down.
   */
  lemma QuitNeedsEscapeOrHold(e: Event, js: Joystick, b: Buttons)
    ensures Classify(e, js, b) == Some(Quit) <==>
      e == KeyDown(Escape) ||
      (e == JoyButtonDown(b.shutdownPress) && js.Present? && b.shutdownHold in js.held)
  {
  }

  /**
   * Without the hold button, the shutdown press falls through to the generate
   * and daydream checks.
   */
  lemma ShutdownPressFallsThrough(js: Joystick, b: Buttons)
    requires js.Present? && b.shutdownHold !in js.held
    ensures Classify(JoyButtonDown(b.shutdownPress), js, b) ==
      if b.shutdownPress == b.generate then Some(Next)
      else if b.shutdownPress == b.daydream then Some(Daydream)
      else None
  {
  }
}

=== FILE: layout.dfy ===
/**
 * Laying out the chosen verse beside the image: the verse is split into
 * stripped lines, the font shrinks by 2 until the widest line fits the verse
 * column, the lines are stacked around the vertical centre, and the image
 * goes on the chosen side.  Font metrics are abstract functions of
 * (font size, text).
 */
module Layout {
  import opened Wrappers

  // ------------------------------------------------------ splitting lines

  /** Python's str.isspace for one character. */
  predicate IsSpace(c: char) {
    var n := c as int;
    (0x09 <= n <= 0x0D) || (0x1C <= n <= 0x20) || n == 0x85 || n == 0xA0 || n == 0x1680 ||
    (0x2000 <= n <= 0x200A) || n == 0x2028 || n == 0x2029 || n == 0x202F || n == 0x205F || n == 0x3000
  }

  /** Number of newline characters in s. */
  function Newlines(s: string): nat {
    if s == [] then 0 else (if s[0] == '\n' then 1 else 0) + Newlines(s[1..])
  }

  /** str.split("\n"): the pieces between newlines, one more than there are newlines. */
  function Split(s: string): (parts: seq<string>)
    ensures |parts| == Newlines(s) + 1
    ensures forall i :: 0 <= i < |parts| ==> '\n' !in parts[i]
  {
    if s == [] then [""]
    else
      var rest := Split(s[1..]);
      if s[0] == '\n' then [""] + rest
      else
        assert '\n' !in [s[0]] + rest[0];
        [[s[0]] + rest[0]] + rest[1..]
  }

  /** "\n".join(parts). */
  function Join(parts: seq<string>): string
    requires |parts| >= 1
  {
    if |parts| == 1 then parts[0] else parts[0] + "\n" + Join(parts[1..])
  }

  lemma {:induction false} JoinSplit(s: string)
    ensures Join(Split(s)) == s
  {
    if s != [] {
      var rest := Split(s[1..]);
      JoinSplit(s[1..]);
      if s[0] != '\n' && |rest| > 1 {
        assert Split(s)[1..] == rest[1..];
        assert Join(rest) == rest[0] + "\n" + Join(rest[1..]);
      }
    }
  }

  lemma {:induction false} SplitPrefix(p: string, t: string)
    requires '\n' !in p
    ensures Split(p + t) == [p + Split(t)[0]] + Split(t)[1..]
  {
    if p == [] {
      assert p + t == t;
      assert p + Split(t)[0] == Split(t)[0];
      assert [Split(t)[0]] + Split(t)[1..] == Split(t);
    } else {
      assert (p + t)[0] == p[0];
      assert (p + t)[1..] == p[1..] + t;
      SplitPrefix(p[1..], t);
      assert [p[0]] + (p[1..] + Split(t)[0]) == p + Split(t)[0];
    }
  }

  lemma {:induction false} SplitJoin(parts: seq<string>)
    requires |parts| >= 1
    requires forall i :: 0 <= i < |parts| ==> '\n' !in parts[i]
    ensures Split(Join(parts)) == parts
  {
    if |parts| == 1 {
      SplitPrefix(parts[0], "");
      assert parts[0] + "" == parts[0];
    } else {
      SplitJoin(parts[1..]);
      var t := Join(parts[1..]);
      assert parts[0] + "\n" + t == parts[0] + ("\n" + t);
      SplitPrefix(parts[0], "\n" + t);
      assert ("\n" + t)[1..] == t;
      assert parts[0] + "" == parts[0];
    }
  }

  // ------------------------------------------------------------ stripping

  function LeadingSpaces(s: string): (n: nat)
    ensures n <= |s|
    ensures forall i :: 0 <= i < n ==> IsSpace(s[i])
    ensures n < |s| ==> !IsSpace(s[n])
  {
    if s == [] || !IsSpace(s[0]) then 0 else 1 + LeadingSpaces(s[1..])
  }

  function TrailingSpaces(s: string): (n: nat)
    ensures n <= |s|
    ensures forall i :: |s| - n <= i < |s| ==> IsSpace(s[i])
    ensures n < |s| ==> !IsSpace(s[|s| - 1 - n])
  {
    if s == [] || !IsSpace(s[|s| - 1]) then 0 else 1 + TrailingSpaces(s[..|s| - 1])
  }

  /** str.strip(): s without its whitespace prefix and suffix, which are as long as possible. */
  function Strip(s: string): (r: string)
    ensures r == [] || (!IsSpace(r[0]) && !IsSpace(r[|r| - 1]))
    ensures exists i, j ::
              && 0 <= i <= j <= |s| && r == s[i..j]
              && (forall k :: 0 <= k < i ==> IsSpace(s[k]))
              && (forall k :: j <= k < |s| ==> IsSpace(s[k]))
  {
    var i := LeadingSpaces(s);
    if i == |s| then
      assert s[i..i] == [];
      []
    else
      var j := |s| - TrailingSpaces(s);
      assert i < j;
      s[i..j]
  }

  /** The verse's lines: split at newlines, each stripped. */
  function Lines(verse: string): (lines: seq<string>)
    ensures |lines| == Newlines(verse) + 1
  {
    StripAll(Split(verse))
  }

  /** Line k of the verse is its k-th newline-separated part with the surrounding whitespace stripped. */
  lemma LinesAreStrippedParts(verse: string)
    ensures forall k :: 0 <= k < |Lines(verse)| ==> Lines(verse)[k] == Strip(Split(verse)[k])
  {
  }

  function StripAll(parts: seq<string>): (stripped: seq<string>)
    ensures |stripped| == |parts|
    ensures forall k :: 0 <= k < |parts| ==> stripped[k] == Strip(parts[k])
  {
    if parts == [] then [] else [Strip(parts[0])] + StripAll(parts[1..])
  }

  // --------------------------------------------------------------- metrics

  /** Rendered width and height of a text at a font size, and a size at or below which every text fits. */
  datatype Metrics = Metrics(width: (int, string) -> int, height: (int, string) -> int, floor: int)

  datatype Geometry = Geometry(displayWidth: int, displayHeight: int, imgWidth: int,
                               horizMargin: int, fontSize: int, lineSpacing: int)

  /** The width left for the verse: the display minus the image and three margins. */
  function MaxVerseWidth(g: Geometry): int {
    (g.displayWidth - g.imgWidth) - g.horizMargin * 3
  }

  /** Fonts at or below the metrics' floor size fit the verse column, so the shrink loop ends. */
  ghost predicate Shrinks(m: Metrics, g: Geometry) {
    forall size: int, line: string :: size <= m.floor ==> m.width(size, line) < MaxVerseWidth(g)
  }

  /**
   * The first line of greatest positive width, or None when no line has a
   * positive width (the source then keeps whatever line it found before).
   */
  method LongestLine(lines: seq<string>, width: string -> int) returns (k: Option<nat>)
    ensures k.None? <==> forall j :: 0 <= j < |lines| ==> width(lines[j]) <= 0
    ensures k.Some? ==> k.value < |lines| && width(lines[k.value]) > 0
    ensures k.Some? ==> forall j :: 0 <= j < |lines| ==> width(lines[j]) <= width(lines[k.value])
    ensures k.Some? ==> forall j :: 0 <= j < k.value ==> width(lines[j]) < width(lines[k.value])
  {
    var longest := 0;
    k := None;
    for i := 0 to |lines|
      invariant k.None? ==> longest == 0 && forall j :: 0 <= j < i ==> width(lines[j]) <= 0
      invariant k.Some? ==> k.value < i && longest == width(lines[k.value]) > 0
      invariant k.Some? ==> forall j :: 0 <= j < i ==> width(lines[j]) <= longest
      invariant k.Some? ==> forall j :: 0 <= j < k.value ==> width(lines[j]) < longest
    {
      var w := width(lines[i]);
      if w > longest {
        longest := w;
        k := Some(i);
      }
    }
  }

  /**
   * The shrink loop: the largest of start, start-2, start-4, ... at which the
   * line is narrower than the column.
   */
  method FitFontSize(start: int, line: string, maxWidth: int, width: (int, string) -> int, floor: int)
    returns (size: int)
    requires forall s: int :: s <= floor ==> width(s, line) < maxWidth
    ensures size <= start && (start - size) % 2 == 0
    ensures width(size, line) < maxWidth
    ensures forall s :: size < s <= start && (start - s) % 2 == 0 ==> width(s, line) >= maxWidth
  {
    size := start;
    var fits := false;
    while !fits
      invariant size <= start && (start - size) % 2 == 0
      invariant forall s :: size < s <= start && (start - s) % 2 == 0 ==> width(s, line) >= maxWidth
      invariant fits ==> width(size, line) < maxWidth
      decreases if fits then 0 else 1, size - floor
    {
      if width(size, line) < maxWidth {
        fits := true;
      } else {
        size := size - 2;
      }
    }
  }

  function SumHeights(lines: seq<string>, height: string -> int): int {
    if lines == [] then 0 else SumHeights(lines[..|lines| - 1], height) + height(lines[|lines| - 1])
  }

  /** Total height: every line's height, plus the spacing between consecutive lines. */
  method TotalHeight(lines: seq<string>, height: string -> int, spacing: int) returns (total: int)
    ensures total == SumHeights(lines, height) + spacing * (|lines| - 1)
  {
    total := 0;
    for i := 0 to |lines|
      invariant total == SumHeights(lines[..i], height) + spacing * i
    {
      assert lines[..i + 1][..i] == lines[..i];
      total := total + height(lines[i]);
      total := total + spacing;
    }
    assert lines[..|lines|] == lines;
    total := total - spacing;
  }

  /** Python's int(a / b) for b > 0: division truncated toward zero. */
  function TruncDiv(a: int, b: int): (q: int)
    requires b > 0
    ensures a >= 0 ==> 0 <= a - q * b < b
    ensures a < 0 ==> -b < a - q * b <= 0
  {
    if a >= 0 then a / b else -((-a) / b)
  }

  /** Vertical position of line k: half the display height plus its offset, truncated. */
  function LineTop(displayHeight: int, total: int, count: nat, k: nat): int
    requires count > 0
  {
    TruncDiv(displayHeight + 2 * (k * TruncDiv(total, count) - TruncDiv(total, 2)), 2)
  }

  /** The blit loop's positions: the offset starts at minus half the total and grows by total/count per line. */
  method LineTops(displayHeight: int, total: int, count: nat) returns (tops: seq<int>)
    ensures |tops| == count
    ensures forall k :: 0 <= k < count ==> tops[k] == LineTop(displayHeight, total, count, k)
  {
    var offset := -TruncDiv(total, 2);
    tops := [];
    for i := 0 to count
      invariant |tops| == i
      invariant count > 0 ==> offset == i * TruncDiv(total, count) - TruncDiv(total, 2)
      invariant forall k :: 0 <= k < i ==> tops[k] == LineTop(displayHeight, total, count, k)
    {
      tops := tops + [TruncDiv(displayHeight + 2 * offset, 2)];
      offset := offset + TruncDiv(total, count);
    }
  }

  /**
   * Halving a height after adding twice an offset, as the blit does: the
   * offset comes through whole, and the half of the height is exact on an
   * even height and off by at most one on an odd one.
   */
  lemma HalfShift(a: int, x: int)
    ensures a / 2 + x <= TruncDiv(a + 2 * x, 2) <= a / 2 + x + 1
    ensures a % 2 == 0 ==> TruncDiv(a + 2 * x, 2) == a / 2 + x
  {
    if a % 2 == 0 {
      assert a + 2 * x == 2 * (a / 2 + x);
    } else {
      assert a + 2 * x == 2 * (a / 2 + x) + 1;
    }
  }

  /**
   * With a non-negative total, the lines are evenly spaced by total/count,
   * the first starts half the total above the centre, and the last ends no
   * lower than the centre plus half the total; on an odd display height each
   * position may lie one lower.
   */
  lemma LinesAroundCentre(displayHeight: int, total: int, count: nat, k: nat)
    requires total >= 0 && k < count
    ensures var at := displayHeight / 2 - total / 2 + k * (total / count);
      at <= LineTop(displayHeight, total, count, k) <= at + 1
    ensures displayHeight % 2 == 0 ==>
      LineTop(displayHeight, total, count, k) == displayHeight / 2 - total / 2 + k * (total / count)
    ensures LineTop(displayHeight, total, count, count - 1) + total / count <= displayHeight / 2 + (total - total / 2) + 1
    ensures displayHeight % 2 == 0 ==>
      LineTop(displayHeight, total, count, count - 1) + total / count <= displayHeight / 2 + (total - total / 2)
  {
    HalfShift(displayHeight, k * (total / count) - total / 2);
    HalfShift(displayHeight, (count - 1) * (total / count) - total / 2);
    assert (count - 1) * (total / count) + total / count == count * (total / count);
    assert count * (total / count) <= total;
  }

  // ------------------------------------------------------------- placement

  datatype Side = Left | Right

  datatype Placement = Placement(imageX: int, verseX: int)

  /**
   * Where the image and the verse column start.  Either way, the first
   * column starts at the left margin, one margin separates the two, and the
   * second ends at the right margin.
   */
  function Place(side: Side, g: Geometry): (p: Placement)
    ensures side == Left ==>
      p.imageX == g.horizMargin && p.verseX == p.imageX + g.imgWidth + g.horizMargin &&
      p.verseX + MaxVerseWidth(g) == g.displayWidth - g.horizMargin
    ensures side == Right ==>
      p.verseX == g.horizMargin && p.verseX + MaxVerseWidth(g) + g.horizMargin == p.imageX &&
      p.imageX + g.imgWidth == g.displayWidth - g.horizMargin
  {
    match side
    case Left => Placement(g.horizMargin, g.horizMargin + g.imgWidth + g.horizMargin)
    case Right => Placement(g.displayWidth - g.horizMargin - g.imgWidth, g.horizMargin)
  }

  // ------------------------------------------------------- the whole scene

  /** The height of each text at one font size. */
  function HeightAt(m: Metrics, size: int): string -> int {
    s => m.height(size, s)
  }

  /** The width of each text at one font size. */
  function WidthAt(m: Metrics, size: int): string -> int {
    s => m.width(size, s)
  }

  datatype Scene = Scene(lines: seq<string>, fontSize: int, imageX: int, verseX: int, tops: seq<int>)

  datatype LayoutError = LongestLineUnbound

  /** Some line of the verse has a positive width at the configured font size. */
  predicate AnyVisible(lines: seq<string>, m: Metrics, g: Geometry) {
    exists j :: 0 <= j < |lines| && m.width(g.fontSize, lines[j]) > 0
  }

  /**
   * Lays out a verse.  `previous` is the longest line found by an earlier
   * layout; it is used again when no line of this verse has a positive
   * width, and when there is none at all the layout fails.
   */
  method Compose(verse: string, previous: Option<string>, g: Geometry, m: Metrics, side: Side)
    returns (r: Result<Scene, LayoutError>, longest: Option<string>)
    requires Shrinks(m, g)
    ensures !AnyVisible(Lines(verse), m, g) ==> longest == previous
    ensures AnyVisible(Lines(verse), m, g) ==>
      longest.Some? && longest.value in Lines(verse) && m.width(g.fontSize, longest.value) > 0 &&
      forall j :: 0 <= j < |Lines(verse)| ==> m.width(g.fontSize, Lines(verse)[j]) <= m.width(g.fontSize, longest.value)
    ensures r.Failure? <==> longest.None?
    ensures r.Success? ==> Arranged(r.value, Lines(verse), longest.value, m, g, side)
  {
    var lines := Lines(verse);
    var k := LongestLine(lines, WidthAt(m, g.fontSize));
    longest := if k.Some? then Some(lines[k.value]) else previous;
    if longest.None? {
      return Failure(LongestLineUnbound), longest;
    }
    var scene := Arrange(lines, longest.value, g, m, side);
    r := Success(scene);
  }

  /**
   * The scene for `lines` whose widest line is `longest`: the largest font
   * size, stepping down by 2 from the configured one, at which that line is
   * narrower than the verse column; the image and the column on their sides;
   * and the lines stacked around the vertical centre at that size.
   */
  ghost predicate Arranged(sc: Scene, lines: seq<string>, longest: string, m: Metrics, g: Geometry, side: Side) {
    && sc.lines == lines
    && sc.fontSize <= g.fontSize && (g.fontSize - sc.fontSize) % 2 == 0
    && m.width(sc.fontSize, longest) < MaxVerseWidth(g)
    && (forall s :: sc.fontSize < s <= g.fontSize && (g.fontSize - s) % 2 == 0 ==> m.width(s, longest) >= MaxVerseWidth(g))
    && Placement(sc.imageX, sc.verseX) == Place(side, g)
    && |sc.tops| == |lines|
    && forall k :: 0 <= k < |sc.tops| ==>
         sc.tops[k] == LineTop(g.displayHeight, SumHeights(lines, HeightAt(m, sc.fontSize)) + g.lineSpacing * (|lines| - 1),
                               |lines|, k)
  }

  /** Fits the font to the widest line, then places the image and stacks the lines. */
  method Arrange(lines: seq<string>, longest: string, g: Geometry, m: Metrics, side: Side) returns (sc: Scene)
    requires Shrinks(m, g)
    ensures Arranged(sc, lines, longest, m, g, side)
  {
    var size := FitFontSize(g.fontSize, longest, MaxVerseWidth(g), m.width, m.floor);
    var total := TotalHeight(lines, HeightAt(m, size), g.lineSpacing);
    var tops := LineTops(g.displayHeight, total, |lines|);
    var p := Place(side, g);
    sc := Scene(lines, size, p.imageX, p.verseX, tops);
  }
}

=== FILE: moderation.dfy ===
/** The moderation gate: the service's flag decides, and a transport error is an error, not a block. */
module Moderation {
  import opened Wrappers

  /** The moderation service's answer: the flag of its first result, or a raised error. */
  datatype ModerationReply = Flag(flagged: bool) | TransportError

  datatype ModerationError = ModerationUnavailable

  /** check_moderation: allowed exactly when not flagged; an error propagates. */
  function CheckModeration(reply: ModerationReply): (r: Result<bool, ModerationError>)
    ensures r.Failure? <==> reply.TransportError?
    ensures r == Success(true) <==> reply == Flag(false)
    ensures r == Success(false) <==> reply == Flag(true)
  {
    match reply
    case Flag(flagged) => Success(!flagged)
    case TransportError => Failure(ModerationUnavailable)
  }
}

=== FILE: naming.dfy ===
/** Random lower-case names for output artifacts; the random choices are an input. */
module Naming {

  /** The i-th lower-case ASCII letter. */
  function Letter(i: nat): (c: char)
    requires i < 26
    ensures 'a' <= c <= 'z'
  {
    ('a' as int + i) as char
  }

  /** get_random_string: one letter per random choice. */
  function RandomString(picks: seq<nat>): (s: string)
    requires forall i :: 0 <= i < |picks| ==> picks[i] < 26
    ensures |s| == |picks|
    ensures forall i :: 0 <= i < |s| ==> 'a' <= s[i] <= 'z'
  {
    seq(|picks|, i requires 0 <= i < |picks| => Letter(picks[i]))
  }

  /** The choices that produce a given lower-case string. */
  function Picks(s: string): (picks: seq<nat>)
    requires forall i :: 0 <= i < |s| ==> 'a' <= s[i] <= 'z'
    ensures |picks| == |s|
    ensures forall i :: 0 <= i < |picks| ==> picks[i] < 26
  {
    seq(|s|, i requires 0 <= i < |s| => (s[i] as int - 'a' as int) as nat)
  }

  /** Every lower-case string of the right length is a possible name, from exactly one choice sequence. */
  lemma RandomStringBijective(s: string, picks: seq<nat>)
    requires forall i :: 0 <= i < |s| ==> 'a' <= s[i] <= 'z'
    requires forall i :: 0 <= i < |picks| ==> picks[i] < 26
    ensures RandomString(Picks(s)) == s
    ensures RandomString(picks) == s <==> picks == Picks(s)
  {
    var p := Picks(s);
    assert forall i :: 0 <= i < |s| ==> RandomString(p)[i] == s[i];
    if RandomString(picks) == s {
      assert forall i :: 0 <= i < |picks| ==> picks[i] == p[i] by {
        forall i | 0 <= i < |picks| ensures picks[i] == p[i] {
          assert RandomString(picks)[i] == Letter(picks[i]);
        }
      }
    }
  }
}

=== FILE: session.dfy ===
/**
 * The installation's main loop as a stateful session: the loop variables of
 * main, the three chat personas and the speech cache,
 * changed one poll at a time exactly as SessionSpec.Poll describes.
 */
module Session {
  import opened Wrappers
  import opened Chat
  import opened Events
  import opened Verse
  import opened Speech
  import opened Naming
  import opened Moderation
  import opened Layout
  import opened Throttle
  import opened SessionSpec

  /** None of the calls speaks. */
  predicate SaysNothing(calls: seq<Call>) {
    forall i :: 0 <= i < |calls| ==> !calls[i].Say?
  }

  /** The speak requests that a run of calls hands to the cache: one per Say, in order, keyed by the voice. */
  function SayRequests(v: Voice, tts: string -> Audio, calls: seq<Call>): (r: seq<(string, Audio)>)
    ensures |r| <= |calls|
    ensures SaysNothing(calls) ==> r == []
  {
    if calls == [] then []
    else
      var last := calls[|calls| - 1];
      SayRequests(v, tts, calls[..|calls| - 1]) + (if last.Say? then [(CacheKey(v, last.text), tts(last.text))] else [])
  }

  lemma {:induction false} SayRequestsAppend(v: Voice, tts: string -> Audio, a: seq<Call>, b: seq<Call>)
    ensures SayRequests(v, tts, a + b) == SayRequests(v, tts, a) + SayRequests(v, tts, b)
    decreases |b|
  {
    if b == [] {
      assert a + b == a;
    } else {
      var n := |b| - 1;
      assert (a + b)[..|a + b| - 1] == a + b[..n];
      SayRequestsAppend(v, tts, a, b[..n]);
    }
  }

  /**
   * The cache over a stretch of calls: the requests grow by the stretch's
   * Say calls, the synthesis count never goes down, and it is one per
   * distinct key not cached at the start.
   */
  lemma SpokenDuring(v: Voice, tts: string -> Audio, files: map<string, Audio>, before: seq<Call>, calls: seq<Call>,
                     reqBefore: seq<(string, Audio)>, reqAfter: seq<(string, Audio)>)
    requires reqBefore == SayRequests(v, tts, before)
    requires reqAfter == SayRequests(v, tts, before + calls)
    ensures reqAfter == reqBefore + SayRequests(v, tts, calls)
    ensures SpeakAll(files, reqBefore).1 <= SpeakAll(files, reqAfter).1
    ensures SpeakAll(files, reqAfter).1 == |Keys(reqAfter) - files.Keys|
  {
    SayRequestsAppend(v, tts, before, calls);
    SynthesesGrow(files, reqBefore, SayRequests(v, tts, calls));
    SynthesisOncePerKey(files, reqAfter);
  }

  /**
   * The recording loop: up to ten attempts, stopping at the first one that
   * carries voice; a daydream does not record and counts as heard at once.
   */
  method Listen(daydream: bool, recordings: seq<Recording>) returns (silent: nat, heard: bool)
    requires |recordings| >= MaxSilentLoops
    ensures daydream ==> silent == 0 && heard
    ensures !daydream ==> silent == FirstVoiced(recordings) && (heard <==> silent < MaxSilentLoops)
  {
    silent := 0;
    heard := false;
    while silent < MaxSilentLoops
      invariant silent <= MaxSilentLoops
      invariant daydream ==> silent == 0
      invariant !daydream ==> forall j :: 0 <= j < silent ==> !recordings[j].voiced
      invariant !heard
    {
      var valid := if daydream then true else recordings[silent].voiced;
      if valid {
        heard := true;
        break;
      }
      silent := silent + 1;
    }
  }

  class Session {
    const cfg: Config
    const artist: ChatCharacter
    const poet: ChatCharacter
    const critic: ChatCharacter
    const voice: SpeechCache
    /** The speech synthesis service, as a function of the text. */
    const tts: string -> Audio
    /** The cache directory as it was when the session started. */
    ghost const initialCache: map<string, Audio>

    var consecutiveDaydreams: int
    var nextChangeTime: int
    var msg: string
    var daydream: bool
    var startNew: bool
    var silentLoops: int
    var longestLine: Option<string>
    var running: bool
    /** Every call made to the outside, in order. */
    ghost var trace: seq<Call>
    /** Every speak request handed to the cache, in order: its key and the audio the service gives. */
    ghost var requests: seq<(string, Audio)>

    /** Three distinct personas, and a verse area the font can always be shrunk to fit. */
    ghost predicate Valid() {
      && artist != poet && artist != critic && poet != critic
      && Shrinks(cfg.metrics, cfg.geometry)
    }

    /** Every persona's transcript starts with its system turn. */
    ghost predicate PersonasValid()
      reads artist, poet, critic
    {
      artist.Valid() && poet.Valid() && critic.Valid()
    }

    /**
     * The session's speak requests are those of the Say calls in its trace,
     * and the cache directory and the synthesis count are those of the requests.
     */
    ghost predicate CacheAgrees()
      reads voice, this`requests, this`trace
    {
      && requests == SayRequests(voice.voice, tts, trace)
      && voice.files == SpeakAll(initialCache, requests).0
      && voice.syntheses == SpeakAll(initialCache, requests).1
    }

    function Abstract(): State
      reads this`consecutiveDaydreams, this`nextChangeTime, this`msg, this`daydream, this`startNew,
        this`silentLoops, this`longestLine
    {
      State(consecutiveDaydreams, nextChangeTime, msg, daydream, startNew, silentLoops, longestLine.Some?)
    }

    /** The outcome, the new loop state and the calls since the trace was `before` are those of `e`. */
    ghost predicate Follows(e: Effect, c: Outcome, before: seq<Call>)
      reads this`consecutiveDaydreams, this`nextChangeTime, this`msg, this`daydream, this`startNew,
        this`silentLoops, this`longestLine, this`trace
    {
      c == e.outcome && Abstract() == e.state && trace == before + e.calls
    }

    constructor (cfg: Config, artistPrompt: string, poetPrompt: string, criticPrompt: string,
                 v: Voice, cache: map<string, Audio>, tts: string -> Audio, clock: int, delay: int)
      requires Shrinks(cfg.metrics, cfg.geometry)
      requires MinDelay(cfg) <= delay <= MaxDelay(cfg)
      ensures Valid() && PersonasValid() && CacheAgrees() && running
      ensures fresh(artist) && fresh(poet) && fresh(critic) && fresh(voice)
      ensures Abstract() == State(0, clock + delay, "", false, true, 0, false)
      ensures artist.messages == [Turn(System, artistPrompt)]
      ensures poet.messages == [Turn(System, poetPrompt)]
      ensures critic.messages == [Turn(System, criticPrompt)]
      ensures voice.voice == v && voice.files == cache && voice.syntheses == 0
      ensures trace == [] && requests == []
    {
      this.cfg := cfg;
      this.tts := tts;
      artist := new ChatCharacter(artistPrompt);
      poet := new ChatCharacter(poetPrompt);
      critic := new ChatCharacter(criticPrompt);
      voice := new SpeechCache(v, cache);
      initialCache := cache;
      consecutiveDaydreams := 0;
      nextChangeTime := clock + delay;
      msg := "";
      daydream := false;
      startNew := true;
      silentLoops := 0;
      longestLine := None;
      running := true;
      trace := [];
      requests := [];
    }

    /** Records calls that speak nothing. */
    ghost method Log(calls: seq<Call>)
      requires CacheAgrees() && SaysNothing(calls)
      modifies this`trace
      ensures trace == old(trace) + calls
      ensures CacheAgrees()
    {
      SayRequestsAppend(voice.voice, tts, trace, calls);
      trace := trace + calls;
    }

    /** speak_text through the session's cache. */
    method SpeakPhrase(text: string)
      requires CacheAgrees()
      modifies voice, this`trace, this`requests
      ensures CacheAgrees()
      ensures trace == old(trace) + [Say(text)]
      ensures requests == old(requests) + [(CacheKey(voice.voice, text), tts(text))]
      ensures CacheKey(voice.voice, text) in voice.files
      ensures voice.played == old(voice.played) + [voice.files[CacheKey(voice.voice, text)]]
    {
      SpeakAllSnoc(initialCache, requests, (CacheKey(voice.voice, text), tts(text)));
      voice.SpeakText(text, tts(text));
      assert CacheKey(voice.voice, text) in voice.files;
      assert (trace + [Say(text)])[..|trace|] == trace;
      trace := trace + [Say(text)];
      requests := requests + [(CacheKey(voice.voice, text), tts(text))];
    }

    /**
     * The poet's and the critic's transcripts: those of one arbitration on
     * `theme` when it took place, and as they were otherwise.
     */
    ghost predicate Consulted(w: World, theme: string, poetBefore: seq<Turn>, criticBefore: seq<Turn>, arbitrated: bool)
      reads poet, critic
    {
      if arbitrated then
        && poet.messages == PoetTranscript(poet.systemPrompt, cfg.verseBasePrompt, theme, w.poetAnswers)
        && critic.messages == CriticTranscript(critic.systemPrompt, theme, w.poetAnswers, w.criticAnswer)
      else
        poet.messages == poetBefore && critic.messages == criticBefore
    }

    /** What a daydream adds to the artist's transcript: the request, and the answer when one came. */
    function Daydreamt(w: World, previous: string): seq<Turn> {
      [Turn(User, ArtistPrompt(cfg.artistBasePrompt, previous))]
        + (if w.artistAnswer.Answered? then [w.artistAnswer.message] else [])
    }

    /**
     * One poll of the main loop: read the event queue, let the timer turn it
     * into a daydream, count daydreams, and either hold back (over the
     * ceiling) or run a daydream or a voice cycle.
     */
    method Step(w: World) returns (c: Outcome)
      requires Valid() && PersonasValid() && CacheAgrees() && Admissible(w, cfg) && running
      modifies this, artist, poet, critic, voice
      ensures PersonasValid() && CacheAgrees()
      ensures Follows(Poll(old(Abstract()), w, cfg), c, old(trace))
      ensures requests == old(requests) + SayRequests(voice.voice, tts, Poll(old(Abstract()), w, cfg).calls)
      ensures old(voice.syntheses) <= voice.syntheses == |Keys(requests) - initialCache.Keys|
      ensures running == !(c == ShutDown || c.Crashed?)
      ensures artist.messages == old(artist.messages) + (if Dreams(old(Abstract()), w, cfg) then Daydreamt(w, old(msg)) else [])
      ensures Consulted(w, msg, old(poet.messages), old(critic.messages), Arbitrates(old(Abstract()), w, cfg))
    {
      c := Dispatch(w);
      SpokenDuring(voice.voice, tts, initialCache, old(trace), Poll(old(Abstract()), w, cfg).calls, old(requests), requests);
    }

    /** Reads the event queue, then stops or goes on to count and run the cycle. */
    method Dispatch(w: World) returns (c: Outcome)
      requires Valid() && PersonasValid() && CacheAgrees() && Admissible(w, cfg) && running
      modifies this`running, this`consecutiveDaydreams, this`daydream, this`startNew, this`trace, this`requests,
        this`longestLine, this`nextChangeTime, this`msg, this`silentLoops, artist, poet, critic, voice
      ensures PersonasValid() && CacheAgrees()
      ensures Follows(Poll(old(Abstract()), w, cfg), c, old(trace))
      ensures running == !(c == ShutDown || c.Crashed?)
      ensures artist.messages == old(artist.messages) + (if Dreams(old(Abstract()), w, cfg) then Daydreamt(w, old(msg)) else [])
      ensures Consulted(w, msg, old(poet.messages), old(critic.messages), Arbitrates(old(Abstract()), w, cfg))
    {
      var status := ReadStatus(w);
      if status.None? || status.value == Quit {
        c := Halt(w, status);
        assert artist.messages == old(artist.messages) + [];
        assert poet.messages == old(poet.messages) && critic.messages == old(critic.messages);
      } else {
        c := Advance(w, status.value);
      }
    }

    /** A poll that read no event goes on; one that read Quit ends the loop. Nothing else changes. */
    method Halt(w: World, status: Option<Status>) returns (c: Outcome)
      requires Admissible(w, cfg)
      requires status == Polled(Decoded(w, cfg), w.now, nextChangeTime) && (status.None? || status == Some(Quit))
      modifies this`running
      ensures Follows(Poll(Abstract(), w, cfg), c, trace)
      ensures running == (c == NoEvent) && (c == NoEvent || c == ShutDown)
      ensures !Dreams(Abstract(), w, cfg) && !Arbitrates(Abstract(), w, cfg)
    {
      PollStops(Abstract(), w, cfg);
      assert trace + [] == trace;
      if status.None? {
        running := true;
        return NoEvent;
      }
      running := false;
      return ShutDown;
    }

    /** The event queue's status, turned into a daydream once the trigger time has come. */
    method ReadStatus(w: World) returns (status: Option<Status>)
      ensures status == Polled(Decoded(w, cfg), w.now, nextChangeTime)
    {
      status := CheckForEvent(w.events, w.joystick, cfg.buttons);
      if w.now >= nextChangeTime {
        status := Some(Daydream);
      }
    }

    /** A poll that read Next or Daydream: count it, then hold back or run the cycle. */
    method Advance(w: World, status: Status) returns (c: Outcome)
      requires Valid() && PersonasValid() && CacheAgrees() && Admissible(w, cfg)
      requires Polled(Decoded(w, cfg), w.now, nextChangeTime) == Some(status) && status != Quit
      modifies this`running, this`consecutiveDaydreams, this`daydream, this`startNew, this`trace, this`requests,
        this`longestLine, this`nextChangeTime, this`msg, this`silentLoops, artist, poet, critic, voice
      ensures PersonasValid() && CacheAgrees()
      ensures Follows(Poll(old(Abstract()), w, cfg), c, old(trace))
      ensures c.Crashed? || c == Throttled || c == Silence || c == Created || c == CreationFailed
      ensures running == !c.Crashed?
      ensures artist.messages == old(artist.messages) + (if Dreams(old(Abstract()), w, cfg) then Daydreamt(w, old(msg)) else [])
      ensures Consulted(w, msg, old(poet.messages), old(critic.messages), Arbitrates(old(Abstract()), w, cfg))
    {
      ghost var s1 := Abstract().(consecutive := Counted(consecutiveDaydreams, status), daydream := status == Daydream);
      Count(status);
      if consecutiveDaydreams > cfg.ceiling {
        CycleThrottled(old(Abstract()), w, cfg);
        nextChangeTime := w.clock + w.delay;
        assert trace + [] == trace && artist.messages + [] == artist.messages;
        running := true;
        return Throttled;
      }
      CycleProceeds(old(Abstract()), w, cfg);
      startNew := false;
      assert Abstract() == s1.(startNew := false);
      c := Cycle(w);
    }

    /** Next clears the daydream counter and Daydream adds one; either way a new cycle is due. */
    method Count(status: Status)
      requires status != Quit
      modifies this`consecutiveDaydreams, this`daydream, this`startNew
      ensures Abstract() == old(Abstract()).(consecutive := Counted(old(consecutiveDaydreams), status),
                                             daydream := status == Daydream, startNew := true)
    {
      startNew := true;
      if status == Next {
        daydream := false;
        consecutiveDaydreams := 0;
      } else {
        daydream := true;
        consecutiveDaydreams := consecutiveDaydreams + 1;
      }
    }

    /** The part of a poll after the counter: a daydream or a voice cycle, as the status chose. */
    method Cycle(w: World) returns (c: Outcome)
      requires Valid() && PersonasValid() && CacheAgrees() && Admissible(w, cfg)
      modifies this`running, this`trace, this`requests, this`longestLine, this`nextChangeTime, this`msg,
        this`silentLoops, artist, poet, critic, voice
      ensures PersonasValid() && CacheAgrees()
      ensures running == !c.Crashed?
      ensures Follows(if old(daydream) then Dream(old(Abstract()).(silentLoops := 0), w, cfg) else Converse(old(Abstract()), w, cfg),
                      c, old(trace))
      ensures c.Crashed? || c == Created || c == CreationFailed || c == Silence
      ensures artist.messages == old(artist.messages) + (if old(daydream) then Daydreamt(w, old(msg)) else [])
      ensures Consulted(w, msg, old(poet.messages), old(critic.messages), Heard(old(daydream), w) && Illustrated(w))
    {
      if daydream {
        c := DaydreamCycle(w);
      } else {
        c := VoiceCycle(w);
      }
      TranscriptsOpenWithSystem(poet.systemPrompt, critic.systemPrompt, cfg.verseBasePrompt, msg, w.poetAnswers, w.criticAnswer);
      running := !c.Crashed?;
    }

    /** A daydream: no recording, then the artist persona's new message, which is then created. */
    method DaydreamCycle(w: World) returns (c: Outcome)
      requires Valid() && CacheAgrees() && Admissible(w, cfg)
      modifies this`trace, this`requests, this`longestLine, this`nextChangeTime, this`msg,
        this`silentLoops, artist, poet, critic, voice
      ensures CacheAgrees()
      ensures Follows(Dream(old(Abstract()).(silentLoops := 0), w, cfg), c, old(trace))
      ensures c.Crashed? || c == Created || c == CreationFailed
      ensures artist.messages == old(artist.messages) + Daydreamt(w, old(msg))
      ensures Consulted(w, msg, old(poet.messages), old(critic.messages), Heard(true, w) && Illustrated(w))
    {
      var silent, _ := Listen(true, w.recordings);
      silentLoops := silent;
      c := AskArtist(w);
    }

    /** The artist persona turns the previous message into a new one, which is then created. */
    method AskArtist(w: World) returns (c: Outcome)
      requires Valid() && CacheAgrees() && Admissible(w, cfg)
      modifies this`trace, this`requests, this`longestLine, this`nextChangeTime, this`msg, artist, poet, critic, voice
      ensures CacheAgrees()
      ensures Follows(Dream(old(Abstract()), w, cfg), c, old(trace))
      ensures c.Crashed? || c == Created || c == CreationFailed
      ensures artist.messages == old(artist.messages) + Daydreamt(w, old(msg))
      ensures Consulted(w, msg, old(poet.messages), old(critic.messages), Heard(true, w) && Illustrated(w))
    {
      var prompt := ArtistPrompt(cfg.artistBasePrompt, msg);
      var reply := artist.GetChatResponse(prompt, w.artistAnswer);
      assert artist.messages == old(artist.messages) + Daydreamt(w, old(msg));
      Log([ArtistChat(prompt)]);
      if reply.Failure? {
        DreamUnanswered(old(Abstract()), w, cfg);
        return Crashed(ArtistFailed);
      }
      DreamAnswered(old(Abstract()), w, cfg);
      c := CreateFrom(w, reply.value, old(trace), [ArtistChat(prompt)]);
    }

    /** Takes `text` as the message and creates from it, after the calls `head` this poll has made. */
    method CreateFrom(w: World, text: string, ghost before: seq<Call>, ghost head: seq<Call>) returns (c: Outcome)
      requires Valid() && CacheAgrees() && Admissible(w, cfg) && trace == before + head
      modifies this`trace, this`requests, this`longestLine, this`nextChangeTime, this`msg, poet, critic, voice
      ensures CacheAgrees()
      ensures Follows(Then(head, Create(old(Abstract()).(msg := text), w, cfg)), c, before)
      ensures c.Crashed? || c == Created || c == CreationFailed
      ensures Consulted(w, msg, old(poet.messages), old(critic.messages), Illustrated(w))
    {
      msg := text;
      c := RunCreation(w);
      AppendAssoc(before, head, Create(old(Abstract()).(msg := text), w, cfg).calls);
    }

    /**
     * A voice cycle: greet, record until an attempt carries voice or ten are
     * silent, say the working phrase, transcribe, and create from the text.
     */
    method VoiceCycle(w: World) returns (c: Outcome)
      requires Valid() && CacheAgrees() && Admissible(w, cfg)
      modifies this`trace, this`requests, this`longestLine, this`nextChangeTime, this`msg,
        this`silentLoops, poet, critic, voice
      ensures CacheAgrees()
      ensures Follows(Converse(old(Abstract()), w, cfg), c, old(trace))
      ensures c.Crashed? || c == Created || c == CreationFailed || c == Silence
      ensures Consulted(w, msg, old(poet.messages), old(critic.messages), Heard(false, w) && Illustrated(w))
    {
      SpeakPhrase(Greeting(w));
      var silent, heard := Listen(false, w.recordings);
      silentLoops := silent;
      assert Abstract() == old(Abstract()).(silentLoops := silent);
      if !heard {
        ConverseSilent(old(Abstract()), w, cfg);
        Log(Records(silent));
        AppendAssoc(old(trace), [Say(Greeting(w))], Records(silent));
        return Silence;
      }
      ConverseStages(old(Abstract()), w, cfg);
      ghost var rest := Attend(old(Abstract()).(silentLoops := silent), w, cfg).calls;
      c := Respond(w);
      AppendAssoc(old(trace), [Say(Greeting(w))], Records(silent + 1) + rest);
      AppendAssoc([Say(Greeting(w))], Records(silent + 1), rest);
    }

    /** The recordings up to the voiced attempt, then the working phrase, transcription and creation. */
    method Respond(w: World) returns (c: Outcome)
      requires Valid() && CacheAgrees() && Admissible(w, cfg)
      requires FirstVoiced(w.recordings) < MaxSilentLoops
      modifies this`trace, this`requests, this`longestLine, this`nextChangeTime, this`msg, poet, critic, voice
      ensures CacheAgrees()
      ensures Follows(Then(Records(FirstVoiced(w.recordings) + 1), Attend(old(Abstract()), w, cfg)), c, old(trace))
      ensures c.Crashed? || c == Created || c == CreationFailed
      ensures Consulted(w, msg, old(poet.messages), old(critic.messages), Heard(false, w) && Illustrated(w))
    {
      ghost var records := Records(FirstVoiced(w.recordings) + 1);
      Log(records);
      c := TranscribeAndCreate(w);
      AppendAssoc(old(trace), records, Attend(old(Abstract()), w, cfg).calls);
    }

    /** Says the working phrase, transcribes the voiced recording and creates from the text. */
    method TranscribeAndCreate(w: World) returns (c: Outcome)
      requires Valid() && CacheAgrees() && Admissible(w, cfg)
      requires FirstVoiced(w.recordings) < MaxSilentLoops
      modifies this`trace, this`requests, this`longestLine, this`nextChangeTime, this`msg, poet, critic, voice
      ensures CacheAgrees()
      ensures Follows(Attend(old(Abstract()), w, cfg), c, old(trace))
      ensures c.Crashed? || c == Created || c == CreationFailed
      ensures Consulted(w, msg, old(poet.messages), old(critic.messages), Heard(false, w) && Illustrated(w))
    {
      SpeakPhrase(w.workingLine);
      Log([Transcribe]);
      AppendAssoc(old(trace), [Say(w.workingLine)], [Transcribe]);
      var text := w.transcribe(w.recordings[FirstVoiced(w.recordings)].samples);
      if text.None? {
        AttendUnheard(old(Abstract()), w, cfg);
        return Crashed(TranscriptionFailed);
      }
      AttendHeard(old(Abstract()), w, cfg);
      c := CreateFrom(w, text.value, old(trace), [Say(w.workingLine)] + [Transcribe]);
    }

    /**
     * From the current message to a saved creation: text file, moderation,
     * image request; a refused or failed image is told with the failure
     * phrase.
     */
    method RunCreation(w: World) returns (c: Outcome)
      requires Valid() && CacheAgrees() && Admissible(w, cfg)
      modifies this`trace, this`requests, this`longestLine, this`nextChangeTime, poet, critic, voice
      ensures CacheAgrees()
      ensures Follows(Create(old(Abstract()), w, cfg), c, old(trace))
      ensures c.Crashed? || c == Created || c == CreationFailed
      ensures Consulted(w, msg, old(poet.messages), old(critic.messages), Illustrated(w))
    {
      var name := RandomString(w.letters);
      if w.moderation.TransportError? {
        CreateModerationError(Abstract(), w, cfg);
        Log([WriteText(name, msg), Moderate(ImagePrompt(cfg, msg))]);
        return Crashed(ModerationFailed);
      }
      c := Illustrate(w);
    }

    /** Once the text file is written: moderation's verdict, then the image and the verse or the failure phrase. */
    method Illustrate(w: World) returns (c: Outcome)
      requires Valid() && CacheAgrees() && Admissible(w, cfg) && w.moderation.Flag?
      modifies this`trace, this`requests, this`longestLine, this`nextChangeTime, poet, critic, voice
      ensures CacheAgrees()
      ensures Follows(Create(old(Abstract()), w, cfg), c, old(trace))
      ensures c.Crashed? || c == Created || c == CreationFailed
      ensures Consulted(w, msg, old(poet.messages), old(critic.messages), Illustrated(w))
    {
      var name := RandomString(w.letters);
      var prompt := ImagePrompt(cfg, msg);
      var allowed := CheckModeration(w.moderation);
      if allowed.value && w.image.Some? {
        c := Exhibit(w);
        return;
      }
      if allowed.value {
        CreateImageless(Abstract(), w, cfg);
        Decline([WriteText(name, msg), Moderate(prompt), GenerateImage(prompt)], w.failedLine);
      } else {
        CreateFlagged(Abstract(), w, cfg);
        Decline([WriteText(name, msg), Moderate(prompt)], w.failedLine);
      }
      c := CreationFailed;
    }

    /** Moderation let the prompt through and the image arrived: the verse request, then Finish. */
    method Exhibit(w: World) returns (c: Outcome)
      requires Valid() && CacheAgrees() && Admissible(w, cfg) && w.moderation == Flag(false) && w.image.Some?
      modifies this`trace, this`requests, this`longestLine, this`nextChangeTime, poet, critic, voice
      ensures CacheAgrees()
      ensures Follows(Create(old(Abstract()), w, cfg), c, old(trace))
      ensures c.Crashed? || c == Created
      ensures Consulted(w, msg, old(poet.messages), old(critic.messages), true)
    {
      var prompt := ImagePrompt(cfg, msg);
      CreateIllustrated(Abstract(), w, cfg);
      ghost var head := [WriteText(RandomString(w.letters), msg), Moderate(prompt), GenerateImage(prompt), ChooseVerse(msg)];
      Log(head);
      c := Publish(w);
      AppendAssoc(old(trace), head, Finish(old(Abstract()), w, cfg).calls);
    }

    /** A creation that ends without an image: its calls so far, then the failure phrase. */
    method Decline(ghost head: seq<Call>, phrase: string)
      requires CacheAgrees() && SaysNothing(head)
      modifies this`trace, this`requests, voice
      ensures CacheAgrees()
      ensures trace == old(trace) + (head + [Say(phrase)])
    {
      Log(head);
      SpeakPhrase(phrase);
      AppendAssoc(old(trace), head, [Say(phrase)]);
    }

    /** After the image arrived: verse, layout, then the finished phrase and the two image files. */
    method Publish(w: World) returns (c: Outcome)
      requires Valid() && CacheAgrees() && Admissible(w, cfg) && w.image.Some?
      modifies this`trace, this`requests, this`longestLine, this`nextChangeTime, poet, critic, voice
      ensures CacheAgrees()
      ensures Follows(Finish(old(Abstract()), w, cfg), c, old(trace))
      ensures c.Crashed? || c == Created
      ensures poet.messages == PoetTranscript(poet.systemPrompt, cfg.verseBasePrompt, msg, w.poetAnswers)
      ensures critic.messages == CriticTranscript(critic.systemPrompt, msg, w.poetAnswers, w.criticAnswer)
    {
      ghost var v := Arbitrate(cfg.numVerses, w.poetAnswers, w.criticAnswer, w.pick);
      var scene := WriteVerse(w);
      if scene.Failure? {
        if v.Failure? {
          FinishVerseFailed(old(Abstract()), w, cfg);
        } else {
          FinishLayoutFailed(old(Abstract()), w, cfg);
        }
        assert Abstract() == old(Abstract()) && trace == old(trace) + [];
        return Crashed(scene.error);
      }
      FinishCreated(old(Abstract()), w, cfg);
      assert Abstract() == old(Abstract()).(hasLongest := true);
      ghost var t0 := trace;
      var name := RandomString(w.letters);
      Save(name, w.image.value, scene.value, w.finishedLine, w.clock + w.delay);
      AppendAssoc(t0, if daydream then [] else [Say(w.finishedLine)], [WriteImage(name, w.image.value), WriteScene(name, scene.value.lines)]);
      c := Created;
    }

    /** The poet and critic choose a verse, which is then laid out. */
    method WriteVerse(w: World) returns (scene: Result<Scene, Fault>)
      requires Valid() && Admissible(w, cfg)
      modifies poet, critic, this`longestLine
      ensures var v := Arbitrate(cfg.numVerses, w.poetAnswers, w.criticAnswer, w.pick);
        && (v.Failure? ==> scene == Failure(VerseFailed(v.error)))
        && (v.Success? ==>
              && (scene.Failure? <==> old(longestLine).None? && !AnyVisible(Lines(v.value), cfg.metrics, cfg.geometry))
              && (scene.Failure? ==> scene.error == LayoutFailed)
              && (scene.Success? ==> scene.value.lines == Lines(v.value)))
      ensures scene.Success? ==> longestLine.Some?
      ensures scene.Failure? ==> longestLine == old(longestLine)
      ensures poet.messages == PoetTranscript(poet.systemPrompt, cfg.verseBasePrompt, old(msg), w.poetAnswers)
      ensures critic.messages == CriticTranscript(critic.systemPrompt, old(msg), w.poetAnswers, w.criticAnswer)
    {
      var verse := GetBestVerse(poet, critic, cfg.verseBasePrompt, msg, cfg.numVerses,
                                w.poetAnswers, w.criticAnswer, w.pick);
      if verse.Failure? {
        return Failure(VerseFailed(verse.error));
      }
      var laid := LayOut(verse.value, w.side);
      if laid.Failure? {
        return Failure(LayoutFailed);
      }
      scene := Success(laid.value);
    }

    /** Lays the verse out next to the image, remembering the longest line across cycles. */
    method LayOut(verse: string, side: Side) returns (scene: Result<Scene, LayoutError>)
      requires Shrinks(cfg.metrics, cfg.geometry)
      modifies this`longestLine
      ensures scene.Failure? <==> old(longestLine).None? && !AnyVisible(Lines(verse), cfg.metrics, cfg.geometry)
      ensures scene.Success? ==> longestLine.Some?
      ensures scene.Success? ==> scene.value.lines == Lines(verse)
      ensures scene.Success? ==> Arranged(scene.value, Lines(verse), longestLine.value, cfg.metrics, cfg.geometry, side)
      ensures scene.Failure? ==> longestLine == old(longestLine)
      ensures !AnyVisible(Lines(verse), cfg.metrics, cfg.geometry) ==> longestLine == old(longestLine)
      ensures AnyVisible(Lines(verse), cfg.metrics, cfg.geometry) ==>
        && longestLine.Some? && longestLine.value in Lines(verse)
        && cfg.metrics.width(cfg.geometry.fontSize, longestLine.value) > 0
        && forall j :: 0 <= j < |Lines(verse)| ==>
             cfg.metrics.width(cfg.geometry.fontSize, Lines(verse)[j]) <= cfg.metrics.width(cfg.geometry.fontSize, longestLine.value)
    {
      var longest;
      scene, longest := Compose(verse, longestLine, cfg.geometry, cfg.metrics, side);
      longestLine := longest;
    }

    /** Says the finished phrase on a voice cycle, saves the image and the screen, and redraws the trigger time. */
    method Save(name: string, image: seq<byte>, scene: Scene, finished: string, next: int)
      requires CacheAgrees()
      modifies this`trace, this`requests, this`nextChangeTime, voice
      ensures CacheAgrees()
      ensures trace == old(trace) + (if daydream then [] else [Say(finished)]) + [WriteImage(name, image), WriteScene(name, scene.lines)]
      ensures Abstract() == old(Abstract()).(nextChange := next)
    {
      ghost var said: seq<Call> := if daydream then [] else [Say(finished)];
      if !daydream {
        SpeakPhrase(finished);
      } else {
        assert trace == old(trace) + said;
      }
      Log([WriteImage(name, image), WriteScene(name, scene.lines)]);
      nextChangeTime := next;
    }
  }
}

=== FILE: session_spec.dfy ===
/**
 * What one poll of the main loop does, as a function of the session's
 * state and of everything outside the program that the poll consults:
 * the outcome, the new state, and the external calls it makes, in order.
 */
module SessionSpec {
  import opened Wrappers
  import opened Chat
  import opened Events
  import opened Verse
  import opened Speech
  import opened Naming
  import opened Moderation
  import opened Layout
  import opened Throttle

  /** Recording attempts per voice cycle before the cycle gives up. */
  const MaxSilentLoops: nat := 10
  /** Length of the random base name shared by a creation's output files. */
  const NameLength: nat := 12

  datatype Config = Config(
    buttons: Buttons,
    imageBasePrompt: string,
    artistBasePrompt: string,
    verseBasePrompt: string,
    numVerses: int,
    /** Bounds of the random delay to the next automatic trigger, in minutes. */
    minDaydreamMinutes: int,
    maxDaydreamMinutes: int,
    /** Consecutive daydreams allowed before the cycles are throttled. */
    ceiling: int,
    geometry: Geometry,
    metrics: Metrics)

  /** What one call of the recorder returns: the samples and whether voice was detected. */
  datatype Recording = Recording(samples: Audio, voiced: bool)

  /**
   * Everything outside the program that one poll consults: clock readings,
   * the event queue, random draws, and the answers of the recorder and of
   * the speech, chat, moderation and image services.
   */
  datatype World = World(
    now: int,
    events: seq<Event>,
    joystick: Joystick,
    /** The clock reading and random delay used if the trigger time is redrawn. */
    clock: int,
    delay: int,
    /** The phrases drawn at random from the configuration's phrase lists. */
    welcomeWord: string,
    welcomeLine: string,
    workingLine: string,
    finishedLine: string,
    failedLine: string,
    recordings: seq<Recording>,
    transcribe: Audio -> Option<string>,
    artistAnswer: Completion,
    letters: seq<nat>,
    moderation: ModerationReply,
    image: Option<seq<byte>>,
    poetAnswers: seq<Completion>,
    criticAnswer: Completion,
    pick: nat,
    side: Side)

  /** The delay bounds, converted to seconds. */
  function MinDelay(cfg: Config): int {
    cfg.minDaydreamMinutes * 60
  }

  function MaxDelay(cfg: Config): int {
    cfg.maxDaydreamMinutes * 60
  }

  /** The ranges the random draws and the recorder are confined to. */
  predicate Admissible(w: World, cfg: Config) {
    && w.now <= w.clock
    && MinDelay(cfg) <= w.delay <= MaxDelay(cfg)
    && |w.recordings| >= MaxSilentLoops
    && |w.letters| == NameLength
    && (forall i :: 0 <= i < |w.letters| ==> w.letters[i] < 26)
    && |w.poetAnswers| == RangeCount(cfg.numVerses)
    && (RangeCount(cfg.numVerses) > 0 ==> w.pick < RangeCount(cfg.numVerses))
  }

  /** The loop variables of main that survive from one poll to the next. */
  datatype State = State(
    consecutive: int,
    nextChange: int,
    msg: string,
    daydream: bool,
    startNew: bool,
    silentLoops: int,
    /** Whether a longest line from some earlier layout is still bound. */
    hasLongest: bool)

  function ControlOf(s: State): Control {
    Control(s.consecutive, s.nextChange)
  }

  /** A call to something outside the program. */
  datatype Call =
    | Say(text: string)
    | Record
    | Transcribe
    | ArtistChat(message: string)
    | WriteText(name: string, text: string)
    | Moderate(prompt: string)
    | GenerateImage(prompt: string)
    | ChooseVerse(theme: string)
    | WriteImage(name: string, bytes: seq<byte>)
    | WriteScene(name: string, lines: seq<string>)

  /** An error that nothing in main catches, so the process ends. */
  datatype Fault = TranscriptionFailed | ArtistFailed | ModerationFailed | VerseFailed(error: ArbiterError) | LayoutFailed

  datatype Outcome = NoEvent | ShutDown | Throttled | Silence | Created | CreationFailed | Crashed(fault: Fault)

  datatype Effect = Effect(outcome: Outcome, state: State, calls: seq<Call>)

  function Decoded(w: World, cfg: Config): Option<Status> {
    CheckForEvent(w.events, w.joystick, cfg.buttons)
  }

  function TickOf(w: World, cfg: Config): Tick {
    Tick(w.now, Decoded(w, cfg), w.clock, w.delay)
  }

  /** Number of silent recordings before the first voiced one, capped at MaxSilentLoops. */
  function FirstVoiced(rs: seq<Recording>): (k: nat)
    requires |rs| >= MaxSilentLoops
    ensures k <= MaxSilentLoops
    ensures forall j :: 0 <= j < k ==> !rs[j].voiced
    ensures k < MaxSilentLoops ==> rs[k].voiced
  {
    VoicedFrom(rs, 0)
  }

  function VoicedFrom(rs: seq<Recording>, i: nat): (k: nat)
    requires i <= MaxSilentLoops <= |rs|
    ensures i <= k <= MaxSilentLoops
    ensures forall j :: i <= j < k ==> !rs[j].voiced
    ensures k < MaxSilentLoops ==> rs[k].voiced
    decreases MaxSilentLoops - i
  {
    if i == MaxSilentLoops || rs[i].voiced then i else VoicedFrom(rs, i + 1)
  }

  function Records(n: nat): (calls: seq<Call>)
    ensures |calls| == n
    ensures forall j :: 0 <= j < n ==> calls[j] == Record
  {
    if n == 0 then [] else Records(n - 1) + [Record]
  }

  /** The daydream request to the artist persona. */
  function ArtistPrompt(basePrompt: string, msg: string): string {
    if msg != "" then basePrompt + " " + msg else basePrompt + " something completely random."
  }

  function ImagePrompt(cfg: Config, msg: string): string {
    cfg.imageBasePrompt + msg
  }

  function Greeting(w: World): string {
    w.welcomeWord + " " + w.welcomeLine
  }

  /** The calls of an earlier stage run before those of a later one. */
  function Then(calls: seq<Call>, e: Effect): Effect {
    e.(calls := calls + e.calls)
  }

  /** One poll of the main loop. */
  function Poll(s: State, w: World, cfg: Config): (e: Effect)
    requires Admissible(w, cfg)
  {
    var polled := Polled(Decoded(w, cfg), w.now, s.nextChange);
    if polled.None? then Effect(NoEvent, s, [])
    else if polled.value == Quit then Effect(ShutDown, s, [])
    else
      var status := polled.value;
      var s1 := s.(consecutive := Counted(s.consecutive, status), daydream := status == Daydream, startNew := true);
      if s1.consecutive > cfg.ceiling then
        Effect(Throttled, s1.(nextChange := w.clock + w.delay), [])
      else if s1.daydream then
        Dream(s1.(startNew := false, silentLoops := 0), w, cfg)
      else
        Converse(s1.(startNew := false), w, cfg)
  }

  /** A daydream: the artist persona supplies the message from the previous one. */
  function Dream(s: State, w: World, cfg: Config): (e: Effect)
    requires Admissible(w, cfg)
  {
    var calls := [ArtistChat(ArtistPrompt(cfg.artistBasePrompt, s.msg))];
    match w.artistAnswer
    case Unavailable => Effect(Crashed(ArtistFailed), s, calls)
    case Answered(reply) => Then(calls, Create(s.(msg := reply.content), w, cfg))
  }

  /** A voice cycle: greet, record until voice is heard or ten attempts are silent, transcribe. */
  function Converse(s: State, w: World, cfg: Config): (e: Effect)
    requires Admissible(w, cfg)
  {
    var k := FirstVoiced(w.recordings);
    if k == MaxSilentLoops then
      Effect(Silence, s.(silentLoops := k), [Say(Greeting(w))] + Records(k))
    else
      var calls := [Say(Greeting(w))] + Records(k + 1) + [Say(w.workingLine), Transcribe];
      match w.transcribe(w.recordings[k].samples)
      case None => Effect(Crashed(TranscriptionFailed), s.(silentLoops := k), calls)
      case Some(text) => Then(calls, Create(s.(silentLoops := k, msg := text), w, cfg))
  }

  /** Once a recording carried voice: the working phrase, the transcription, and a creation from its text. */
  function Attend(s: State, w: World, cfg: Config): (e: Effect)
    requires Admissible(w, cfg)
    requires FirstVoiced(w.recordings) < MaxSilentLoops
  {
    var calls := [Say(w.workingLine), Transcribe];
    match w.transcribe(w.recordings[FirstVoiced(w.recordings)].samples)
    case None => Effect(Crashed(TranscriptionFailed), s, calls)
    case Some(text) => Then(calls, Create(s.(msg := text), w, cfg))
  }

  /** From a message to a saved creation: text file, moderation, image, verse, layout. */
  function Create(s: State, w: World, cfg: Config): (e: Effect)
    requires Admissible(w, cfg)
  {
    var name := RandomString(w.letters);
    var prompt := ImagePrompt(cfg, s.msg);
    var calls := [WriteText(name, s.msg), Moderate(prompt)];
    match CheckModeration(w.moderation)
    case Failure(_) => Effect(Crashed(ModerationFailed), s, calls)
    case Success(false) => Effect(CreationFailed, s, calls + [Say(w.failedLine)])
    case Success(true) =>
      if w.image.None? then
        Effect(CreationFailed, s, calls + [GenerateImage(prompt), Say(w.failedLine)])
      else
        Then(calls + [GenerateImage(prompt), ChooseVerse(s.msg)], Finish(s, w, cfg))
  }

  /** After the image arrived: pick the verse, lay it out, and save the image and the screen. */
  function Finish(s: State, w: World, cfg: Config): (e: Effect)
    requires Admissible(w, cfg) && w.image.Some?
  {
    var name := RandomString(w.letters);
    match Arbitrate(cfg.numVerses, w.poetAnswers, w.criticAnswer, w.pick)
    case Failure(e) => Effect(Crashed(VerseFailed(e)), s, [])
    case Success(verse) =>
      if !s.hasLongest && !AnyVisible(Lines(verse), cfg.metrics, cfg.geometry) then
        Effect(Crashed(LayoutFailed), s, [])
      else
        Effect(Created, s.(hasLongest := true, nextChange := w.clock + w.delay),
               (if s.daydream then [] else [Say(w.finishedLine)])
                 + [WriteImage(name, w.image.value), WriteScene(name, Lines(verse))])
  }

  /** The poll goes on to consult the artist persona. */
  predicate Dreams(s: State, w: World, cfg: Config) {
    Polled(Decoded(w, cfg), w.now, s.nextChange) == Some(Daydream) && s.consecutive + 1 <= cfg.ceiling
  }

  /** The poll goes on to greet and listen. */
  predicate Listens(s: State, w: World, cfg: Config) {
    Polled(Decoded(w, cfg), w.now, s.nextChange) == Some(Next) && 0 <= cfg.ceiling
  }

  /** The poll has a message and goes on to create from it. */
  predicate Creates(s: State, w: World, cfg: Config)
    requires Admissible(w, cfg)
  {
    || (Dreams(s, w, cfg) && w.artistAnswer.Answered?)
    || (Listens(s, w, cfg) && FirstVoiced(w.recordings) < MaxSilentLoops
        && w.transcribe(w.recordings[FirstVoiced(w.recordings)].samples).Some?)
  }

  /** The poll's creation passes moderation, gets an image, and consults the poet and the critic. */
  predicate Arbitrates(s: State, w: World, cfg: Config)
    requires Admissible(w, cfg)
  {
    Creates(s, w, cfg) && w.moderation == Flag(false) && w.image.Some?
  }

  /** The cycle has a message: the artist answered a daydream, or a recording carried voice and was transcribed. */
  predicate Heard(daydream: bool, w: World)
    requires |w.recordings| >= MaxSilentLoops
  {
    if daydream then w.artistAnswer.Answered?
    else FirstVoiced(w.recordings) < MaxSilentLoops && w.transcribe(w.recordings[FirstVoiced(w.recordings)].samples).Some?
  }

  /** Moderation lets the prompt through and the image arrives, so the poet and the critic are consulted. */
  predicate Illustrated(w: World) {
    w.moderation == Flag(false) && w.image.Some?
  }

  // ------------------------------------------------------------- properties

  /** How a finish can end: saved exactly when a verse is chosen and a longest line is bound; otherwise a crash with no call. */
  lemma FinishEnds(s: State, w: World, cfg: Config)
    requires Admissible(w, cfg) && w.image.Some?
    ensures var e := Finish(s, w, cfg);
      var v := Arbitrate(cfg.numVerses, w.poetAnswers, w.criticAnswer, w.pick);
      && (e.outcome == Created || e.outcome == Crashed(LayoutFailed) || (e.outcome.Crashed? && e.outcome.fault.VerseFailed?))
      && (e.outcome == Created <==> v.Success? && (s.hasLongest || AnyVisible(Lines(v.value), cfg.metrics, cfg.geometry)))
      && (e.outcome.Crashed? ==> e.state == s && e.calls == [])
  {
  }

  /** How a creation can end: a moderation crash exactly when moderation raises, a failure exactly when refused or imageless. */
  lemma CreateEnds(s: State, w: World, cfg: Config)
    requires Admissible(w, cfg)
    ensures var e := Create(s, w, cfg);
      && (e.outcome == Created || e.outcome == CreationFailed || e.outcome.Crashed?)
      && (e.outcome.Crashed? ==> e.outcome.fault != ArtistFailed && e.outcome.fault != TranscriptionFailed)
      && (e.outcome == Crashed(ModerationFailed) <==> w.moderation.TransportError?)
      && (e.outcome == CreationFailed <==> w.moderation == Flag(true) || (w.moderation == Flag(false) && w.image.None?))
  {
    if w.moderation == Flag(false) && w.image.Some? {
      FinishEnds(s, w, cfg);
    }
  }

  /** How the transcription stage can end: a transcription crash exactly when transcription raises, otherwise the creation's end. */
  lemma AttendEnds(s: State, w: World, cfg: Config)
    requires Admissible(w, cfg)
    requires FirstVoiced(w.recordings) < MaxSilentLoops
    ensures var e := Attend(s, w, cfg);
      && (e.outcome == Created || e.outcome == CreationFailed || e.outcome.Crashed?)
      && (e.outcome == Crashed(TranscriptionFailed) <==> w.transcribe(w.recordings[FirstVoiced(w.recordings)].samples).None?)
  {
    var heard := w.transcribe(w.recordings[FirstVoiced(w.recordings)].samples);
    if heard.Some? {
      CreateEnds(s.(msg := heard.value), w, cfg);
    }
  }

  /** How a voice cycle can end: silence exactly when all ten attempts are silent, and never the artist's error. */
  lemma ConverseEnds(s: State, w: World, cfg: Config)
    requires Admissible(w, cfg)
    ensures var e := Converse(s, w, cfg);
      && (e.outcome == Created || e.outcome == CreationFailed || e.outcome.Crashed? || e.outcome == Silence)
      && (e.outcome == Silence <==> FirstVoiced(w.recordings) == MaxSilentLoops)
      && (e.outcome.Crashed? ==> e.outcome.fault != ArtistFailed)
  {
    var k := FirstVoiced(w.recordings);
    if k < MaxSilentLoops {
      var heard := w.transcribe(w.recordings[k].samples);
      if heard.Some? {
        CreateEnds(s.(silentLoops := k, msg := heard.value), w, cfg);
      }
    }
  }

  /** How a daydream can end: an artist crash exactly when the artist request raises. */
  lemma DreamEnds(s: State, w: World, cfg: Config)
    requires Admissible(w, cfg)
    ensures var e := Dream(s, w, cfg);
      && (e.outcome == Created || e.outcome == CreationFailed || e.outcome.Crashed?)
      && (e.outcome == Crashed(ArtistFailed) <==> w.artistAnswer.Unavailable?)
  {
    if w.artistAnswer.Answered? {
      CreateEnds(s.(msg := w.artistAnswer.message.content), w, cfg);
    }
  }

  /** How a poll can end: no event, Quit, or a throttled poll that calls nothing. */
  lemma PollEnds(s: State, w: World, cfg: Config)
    requires Admissible(w, cfg)
    ensures var e := Poll(s, w, cfg);
      var p := Polled(Decoded(w, cfg), w.now, s.nextChange);
      && (e.outcome == NoEvent <==> p.None?)
      && (e.outcome == ShutDown <==> p == Some(Quit))
      && (e.outcome == Throttled ==> e.calls == [])
  {
    var p := Polled(Decoded(w, cfg), w.now, s.nextChange);
    if p.Some? && p.value != Quit {
      var s1 := s.(consecutive := Counted(s.consecutive, p.value), daydream := p.value == Daydream, startNew := true);
      DreamEnds(s1.(startNew := false, silentLoops := 0), w, cfg);
      ConverseEnds(s1.(startNew := false), w, cfg);
    }
  }


  /** A poll that reads no event or Quit changes nothing, calls nothing, and neither dreams nor consults. */
  lemma PollStops(s: State, w: World, cfg: Config)
    requires Admissible(w, cfg)
    ensures var p := Polled(Decoded(w, cfg), w.now, s.nextChange);
      p.None? || p == Some(Quit) ==>
        && Poll(s, w, cfg) == Effect(if p.None? then NoEvent else ShutDown, s, [])
        && !Dreams(s, w, cfg) && !Arbitrates(s, w, cfg)
  {
  }

  /** A counted status within the ceiling runs the daydream or the voice cycle it names. */
  lemma CycleProceeds(s: State, w: World, cfg: Config)
    requires Admissible(w, cfg)
    requires var p := Polled(Decoded(w, cfg), w.now, s.nextChange);
      p.Some? && p != Some(Quit) && Counted(s.consecutive, p.value) <= cfg.ceiling
    ensures var p := Polled(Decoded(w, cfg), w.now, s.nextChange);
      var s1 := s.(consecutive := Counted(s.consecutive, p.value), daydream := p == Some(Daydream), startNew := false);
      && Poll(s, w, cfg) == (if s1.daydream then Dream(s1.(silentLoops := 0), w, cfg) else Converse(s1, w, cfg))
      && (Dreams(s, w, cfg) <==> s1.daydream)
      && (Arbitrates(s, w, cfg) <==> Heard(s1.daydream, w) && Illustrated(w))
  {
  }

  /** A counted status above the ceiling is held back: the trigger time is redrawn and nothing is asked. */
  lemma CycleThrottled(s: State, w: World, cfg: Config)
    requires Admissible(w, cfg)
    requires var p := Polled(Decoded(w, cfg), w.now, s.nextChange);
      p.Some? && p != Some(Quit) && Counted(s.consecutive, p.value) > cfg.ceiling
    ensures var p := Polled(Decoded(w, cfg), w.now, s.nextChange);
      && Poll(s, w, cfg) == Effect(Throttled, s.(consecutive := Counted(s.consecutive, p.value), daydream := p == Some(Daydream),
                                                 startNew := true, nextChange := w.clock + w.delay), [])
      && !Dreams(s, w, cfg) && !Arbitrates(s, w, cfg)
  {
  }

  /** Create leaves the counter alone and redraws the trigger time only when it succeeds. */
  lemma CreateKeepsControl(s: State, w: World, cfg: Config)
    requires Admissible(w, cfg)
    ensures var e := Create(s, w, cfg);
      && e.state.consecutive == s.consecutive
      && e.state.msg == s.msg
      && e.state.daydream == s.daydream
      && e.state.silentLoops == s.silentLoops
      && e.state.nextChange == (if e.outcome == Created then w.clock + w.delay else s.nextChange)
      && (e.outcome == Created || e.outcome == CreationFailed || e.outcome.Crashed?)
  {
    if w.moderation.TransportError? {
      CreateModerationError(s, w, cfg);
    } else if w.moderation == Flag(true) {
      CreateFlagged(s, w, cfg);
    } else if w.image.None? {
      CreateImageless(s, w, cfg);
    } else if Publishes(s, w, cfg) {
      CreatePublished(s, w, cfg);
    } else {
      CreateUnpublished(s, w, cfg);
    }
  }

  /**
   * The counter and the trigger time change exactly as the throttle says,
   * with a successful creation as the only non-throttled redraw; a throttled
   * cycle calls nothing and redraws the trigger time within the configured
   * delay.
   */
  lemma PollFollowsThrottle(s: State, w: World, cfg: Config)
    requires Admissible(w, cfg)
    ensures var e := Poll(s, w, cfg);
      var t := TickOf(w, cfg);
      && ControlOf(e.state) == After(ControlOf(s), t, cfg.ceiling, e.outcome == Created)
      && (e.outcome == Throttled <==> IsThrottled(ControlOf(s), t, cfg.ceiling))
      && (e.outcome == NoEvent || e.outcome == ShutDown <==> !Starts(ControlOf(s), t))
      && (e.outcome == Throttled ==>
            e.calls == [] && w.clock + MinDelay(cfg) <= e.state.nextChange <= w.clock + MaxDelay(cfg))
  {
    var polled := Polled(Decoded(w, cfg), w.now, s.nextChange);
    if polled == Some(Daydream) && s.consecutive + 1 <= cfg.ceiling {
      var s2 := s.(consecutive := s.consecutive + 1, daydream := true, startNew := false, silentLoops := 0);
      if w.artistAnswer.Answered? {
        CreateKeepsControl(s2.(msg := w.artistAnswer.message.content), w, cfg);
      }
    } else if polled == Some(Next) && 0 <= cfg.ceiling {
      var s2 := s.(consecutive := 0, daydream := false, startNew := false);
      var k := FirstVoiced(w.recordings);
      if k < MaxSilentLoops && w.transcribe(w.recordings[k].samples).Some? {
        CreateKeepsControl(s2.(silentLoops := k, msg := w.transcribe(w.recordings[k].samples).value), w, cfg);
      }
    }
  }

  /** None of the calls produces or depends on an image. */
  predicate ImageFree(calls: seq<Call>) {
    forall i :: 0 <= i < |calls| ==>
      !calls[i].GenerateImage? && !calls[i].ChooseVerse? && !calls[i].WriteImage? && !calls[i].WriteScene?
  }

  /**
   * An image is requested only for a prompt the moderation service has just
   * passed, right after the message was saved as text; the verse and the two
   * image files follow an image request that answered.
   */
  predicate Gated(calls: seq<Call>, w: World, name: string, msg: string, prompt: string) {
    && (forall i :: 0 <= i < |calls| && calls[i].GenerateImage? ==>
          && 2 <= i
          && calls[i] == GenerateImage(prompt)
          && calls[i - 1] == Moderate(prompt)
          && calls[i - 2] == WriteText(name, msg)
          && w.moderation == Flag(false))
    && (forall i :: 0 <= i < |calls| && (calls[i].ChooseVerse? || calls[i].WriteImage? || calls[i].WriteScene?) ==>
          w.image.Some? && exists j :: 0 <= j < i && calls[j] == GenerateImage(prompt))
  }

  lemma GatedAfterPrefix(prefix: seq<Call>, calls: seq<Call>, w: World, name: string, msg: string, prompt: string)
    requires ImageFree(prefix)
    requires Gated(calls, w, name, msg, prompt)
    ensures Gated(prefix + calls, w, name, msg, prompt)
  {
    var all := prefix + calls;
    var n := |prefix|;
    forall i | 0 <= i < |all| && all[i].GenerateImage?
      ensures 2 <= i && all[i] == GenerateImage(prompt) && all[i - 1] == Moderate(prompt)
        && all[i - 2] == WriteText(name, msg) && w.moderation == Flag(false)
    {
      assert all[i] == calls[i - n];
      assert all[i - 1] == calls[i - n - 1];
      assert all[i - 2] == calls[i - n - 2];
    }
    forall i | 0 <= i < |all| && (all[i].ChooseVerse? || all[i].WriteImage? || all[i].WriteScene?)
      ensures w.image.Some? && exists j :: 0 <= j < i && all[j] == GenerateImage(prompt)
    {
      assert all[i] == calls[i - n];
      var j :| 0 <= j < i - n && calls[j] == GenerateImage(prompt);
      assert all[j + n] == calls[j];
    }
  }

  /** The calls of a creation after its image request: none of them requests an image. */
  predicate AfterImage(calls: seq<Call>) {
    forall i :: 0 <= i < |calls| ==> !calls[i].GenerateImage?
  }

  /** A creation that gets as far as the image request: text, moderation, image, verse, then the rest. */
  lemma GatedShape(calls: seq<Call>, tail: seq<Call>, w: World, name: string, msg: string, prompt: string)
    requires calls == [WriteText(name, msg), Moderate(prompt), GenerateImage(prompt)] + tail
    requires AfterImage(tail)
    requires w.moderation == Flag(false)
    requires (exists i :: 0 <= i < |tail| && (tail[i].ChooseVerse? || tail[i].WriteImage? || tail[i].WriteScene?)) ==> w.image.Some?
    ensures Gated(calls, w, name, msg, prompt)
  {
    forall i | 0 <= i < |calls| && calls[i].GenerateImage?
      ensures 2 <= i && calls[i] == GenerateImage(prompt) && calls[i - 1] == Moderate(prompt)
        && calls[i - 2] == WriteText(name, msg)
    {
    }
    forall i | 0 <= i < |calls| && (calls[i].ChooseVerse? || calls[i].WriteImage? || calls[i].WriteScene?)
      ensures w.image.Some? && exists j :: 0 <= j < i && calls[j] == GenerateImage(prompt)
    {
      assert calls[i] == tail[i - 3];
      assert calls[2] == GenerateImage(prompt);
    }
  }

  /** The ways a poll goes, each in closed form. */
  lemma PollCases(s: State, w: World, cfg: Config)
    requires Admissible(w, cfg)
    ensures var p := Polled(Decoded(w, cfg), w.now, s.nextChange);
      var e := Poll(s, w, cfg);
      && (p.None? ==> e == Effect(NoEvent, s, []))
      && (p == Some(Quit) ==> e == Effect(ShutDown, s, []))
      && (p.Some? && p != Some(Quit) ==>
            var s1 := s.(consecutive := Counted(s.consecutive, p.value), daydream := p == Some(Daydream), startNew := true);
            && (s1.consecutive > cfg.ceiling ==> e == Effect(Throttled, s1.(nextChange := w.clock + w.delay), []))
            && (s1.consecutive <= cfg.ceiling && s1.daydream ==> e == Dream(s1.(startNew := false, silentLoops := 0), w, cfg))
            && (s1.consecutive <= cfg.ceiling && !s1.daydream ==> e == Converse(s1.(startNew := false), w, cfg)))
  {
  }

  /** The two ways a daydream goes, each in closed form. */
  lemma DreamCases(s: State, w: World, cfg: Config)
    requires Admissible(w, cfg)
    ensures var calls := [ArtistChat(ArtistPrompt(cfg.artistBasePrompt, s.msg))];
      var e := Dream(s, w, cfg);
      && (w.artistAnswer.Unavailable? ==> e == Effect(Crashed(ArtistFailed), s, calls))
      && (w.artistAnswer.Answered? ==> e == Then(calls, Create(s.(msg := w.artistAnswer.message.content), w, cfg)))
  {
  }

  /** A daydream whose artist request raises crashes after that request. */
  lemma DreamUnanswered(s: State, w: World, cfg: Config)
    requires Admissible(w, cfg) && w.artistAnswer.Unavailable?
    ensures Dream(s, w, cfg) == Effect(Crashed(ArtistFailed), s, [ArtistChat(ArtistPrompt(cfg.artistBasePrompt, s.msg))])
  {
  }

  /** A daydream whose artist request is answered creates from the answer. */
  lemma DreamAnswered(s: State, w: World, cfg: Config)
    requires Admissible(w, cfg) && w.artistAnswer.Answered?
    ensures Dream(s, w, cfg) == Then([ArtistChat(ArtistPrompt(cfg.artistBasePrompt, s.msg))],
      Create(s.(msg := w.artistAnswer.message.content), w, cfg))
  {
  }

  /** The three ways a voice cycle goes, each in closed form. */
  lemma ConverseCases(s: State, w: World, cfg: Config)
    requires Admissible(w, cfg)
    ensures var k := FirstVoiced(w.recordings);
      var e := Converse(s, w, cfg);
      && (k == MaxSilentLoops ==> e == Effect(Silence, s.(silentLoops := k), [Say(Greeting(w))] + Records(k)))
      && (k < MaxSilentLoops ==>
            var calls := [Say(Greeting(w))] + Records(k + 1) + [Say(w.workingLine), Transcribe];
            var heard := w.transcribe(w.recordings[k].samples);
            && (heard.None? ==> e == Effect(Crashed(TranscriptionFailed), s.(silentLoops := k), calls))
            && (heard.Some? ==> e == Then(calls, Create(s.(silentLoops := k, msg := heard.value), w, cfg))))
  {
  }

  /** A voice cycle whose ten attempts are all silent ends in Silence after the greeting and the recordings. */
  lemma ConverseSilent(s: State, w: World, cfg: Config)
    requires Admissible(w, cfg)
    requires FirstVoiced(w.recordings) == MaxSilentLoops
    ensures Converse(s, w, cfg) == Effect(Silence, s.(silentLoops := MaxSilentLoops), [Say(Greeting(w))] + Records(MaxSilentLoops))
  {
  }

  /** A voice cycle that hears something is the greeting and the recordings, then Attend. */
  lemma ConverseStages(s: State, w: World, cfg: Config)
    requires Admissible(w, cfg)
    requires FirstVoiced(w.recordings) < MaxSilentLoops
    ensures var k := FirstVoiced(w.recordings);
      Converse(s, w, cfg) == Then([Say(Greeting(w))] + Records(k + 1), Attend(s.(silentLoops := k), w, cfg))
  {
    var k := FirstVoiced(w.recordings);
    var head := [Say(Greeting(w))] + Records(k + 1);
    var calls := [Say(w.workingLine), Transcribe];
    var heard := w.transcribe(w.recordings[k].samples);
    if heard.Some? {
      var e := Create(s.(silentLoops := k, msg := heard.value), w, cfg);
      assert head + calls + e.calls == head + (calls + e.calls);
    }
  }

  /** A voice cycle whose transcription fails crashes after the working phrase and the request. */
  lemma AttendUnheard(s: State, w: World, cfg: Config)
    requires Admissible(w, cfg)
    requires FirstVoiced(w.recordings) < MaxSilentLoops
    requires w.transcribe(w.recordings[FirstVoiced(w.recordings)].samples).None?
    ensures Attend(s, w, cfg) == Effect(Crashed(TranscriptionFailed), s, [Say(w.workingLine)] + [Transcribe])
  {
    assert [Say(w.workingLine)] + [Transcribe] == [Say(w.workingLine), Transcribe];
  }

  /** A voice cycle whose transcription succeeds creates from the text. */
  lemma AttendHeard(s: State, w: World, cfg: Config)
    requires Admissible(w, cfg)
    requires FirstVoiced(w.recordings) < MaxSilentLoops
    requires w.transcribe(w.recordings[FirstVoiced(w.recordings)].samples).Some?
    ensures Attend(s, w, cfg) == Then([Say(w.workingLine)] + [Transcribe],
      Create(s.(msg := w.transcribe(w.recordings[FirstVoiced(w.recordings)].samples).value), w, cfg))
  {
    assert [Say(w.workingLine)] + [Transcribe] == [Say(w.workingLine), Transcribe];
  }

  /** A moderation request that raises ends the creation after the text file and the request. */
  lemma CreateModerationError(s: State, w: World, cfg: Config)
    requires Admissible(w, cfg) && w.moderation.TransportError?
    ensures Create(s, w, cfg) == Effect(Crashed(ModerationFailed), s,
      [WriteText(RandomString(w.letters), s.msg), Moderate(ImagePrompt(cfg, s.msg))])
  {
  }

  /** A flagged prompt is told with the failure phrase and requests no image. */
  lemma CreateFlagged(s: State, w: World, cfg: Config)
    requires Admissible(w, cfg) && w.moderation == Flag(true)
    ensures Create(s, w, cfg) == Effect(CreationFailed, s,
      [WriteText(RandomString(w.letters), s.msg), Moderate(ImagePrompt(cfg, s.msg)), Say(w.failedLine)])
  {
  }

  /** An image request that yields nothing is told with the failure phrase. */
  lemma CreateImageless(s: State, w: World, cfg: Config)
    requires Admissible(w, cfg) && w.moderation == Flag(false) && w.image.None?
    ensures var prompt := ImagePrompt(cfg, s.msg);
      Create(s, w, cfg) == Effect(CreationFailed, s,
        [WriteText(RandomString(w.letters), s.msg), Moderate(prompt), GenerateImage(prompt), Say(w.failedLine)])
  {
  }

  /** An image that arrives is followed by the verse request and Finish. */
  lemma CreateIllustrated(s: State, w: World, cfg: Config)
    requires Admissible(w, cfg) && w.moderation == Flag(false) && w.image.Some?
    ensures var prompt := ImagePrompt(cfg, s.msg);
      Create(s, w, cfg) == Then([WriteText(RandomString(w.letters), s.msg), Moderate(prompt), GenerateImage(prompt), ChooseVerse(s.msg)],
                                Finish(s, w, cfg))
  {
  }

  /** Whether Finish gets as far as saving: a verse arrives and it can be laid out. */
  predicate Publishes(s: State, w: World, cfg: Config)
    requires Admissible(w, cfg)
  {
    var v := Arbitrate(cfg.numVerses, w.poetAnswers, w.criticAnswer, w.pick);
    v.Success? && (s.hasLongest || AnyVisible(Lines(v.value), cfg.metrics, cfg.geometry))
  }

  /** No verse: Finish crashes and calls nothing. */
  lemma FinishVerseFailed(s: State, w: World, cfg: Config)
    requires Admissible(w, cfg) && w.image.Some?
    requires Arbitrate(cfg.numVerses, w.poetAnswers, w.criticAnswer, w.pick).Failure?
    ensures Finish(s, w, cfg) == Effect(Crashed(VerseFailed(Arbitrate(cfg.numVerses, w.poetAnswers, w.criticAnswer, w.pick).error)), s, [])
  {
  }

  /** A verse without a visible line and no earlier longest line: Finish crashes and calls nothing. */
  lemma FinishLayoutFailed(s: State, w: World, cfg: Config)
    requires Admissible(w, cfg) && w.image.Some?
    requires Arbitrate(cfg.numVerses, w.poetAnswers, w.criticAnswer, w.pick).Success? && !Publishes(s, w, cfg)
    ensures Finish(s, w, cfg) == Effect(Crashed(LayoutFailed), s, [])
  {
  }

  /** A verse that can be laid out: the finished phrase on voice cycles, then the image and the screen saved. */
  lemma FinishCreated(s: State, w: World, cfg: Config)
    requires Admissible(w, cfg) && w.image.Some?
    requires Publishes(s, w, cfg)
    ensures var name := RandomString(w.letters);
      Finish(s, w, cfg) == Effect(Created, s.(hasLongest := true, nextChange := w.clock + w.delay),
        (if s.daydream then [] else [Say(w.finishedLine)])
          + [WriteImage(name, w.image.value), WriteScene(name, Lines(Arbitrate(cfg.numVerses, w.poetAnswers, w.criticAnswer, w.pick).value))])
  {
  }

  /** The calls of a creation that saves its results: gated, and ending with the two image files. */
  lemma PublishedShape(calls: seq<Call>, w: World, daydream: bool, name: string, msg: string, prompt: string,
                       image: seq<byte>, lines: seq<string>)
    requires calls == [WriteText(name, msg), Moderate(prompt), GenerateImage(prompt), ChooseVerse(msg)]
      + ((if daydream then [] else [Say(w.finishedLine)]) + [WriteImage(name, image), WriteScene(name, lines)])
    requires w.moderation == Flag(false) && w.image.Some?
    ensures CreationCalls(calls, w, Created, daydream)
    ensures Gated(calls, w, name, msg, prompt)
    ensures var n := |calls|;
      && n >= 6 && calls[0] == WriteText(name, msg)
      && calls[n - 2] == WriteImage(name, image) && calls[n - 1] == WriteScene(name, lines)
      && calls[n - 3] == (if daydream then ChooseVerse(msg) else Say(w.finishedLine))
  {
    var tail := [ChooseVerse(msg)] + ((if daydream then [] else [Say(w.finishedLine)]) + [WriteImage(name, image), WriteScene(name, lines)]);
    assert calls == [WriteText(name, msg), Moderate(prompt), GenerateImage(prompt)] + tail;
    GatedShape(calls, tail, w, name, msg, prompt);
  }

  /** The calls of an illustrated creation that crashes at the verse or the layout: gated, and silent. */
  lemma StoppedShape(calls: seq<Call>, w: World, outcome: Outcome, daydream: bool, name: string, msg: string, prompt: string)
    requires calls == [WriteText(name, msg), Moderate(prompt), GenerateImage(prompt), ChooseVerse(msg)] + []
    requires w.moderation == Flag(false) && w.image.Some?
    ensures CreationCalls(calls, w, outcome, daydream)
    ensures Gated(calls, w, name, msg, prompt)
    ensures |calls| == 4 && calls[0] == WriteText(name, msg)
  {
    GatedShape(calls, [ChooseVerse(msg)], w, name, msg, prompt);
  }

  /** A creation that saves its results. */
  lemma CreatePublished(s: State, w: World, cfg: Config)
    requires Admissible(w, cfg) && w.moderation == Flag(false) && w.image.Some? && Publishes(s, w, cfg)
    ensures var e := Create(s, w, cfg);
      var name := RandomString(w.letters);
      var v := Arbitrate(cfg.numVerses, w.poetAnswers, w.criticAnswer, w.pick);
      var n := |e.calls|;
      && e.outcome == Created && e.state == s.(hasLongest := true, nextChange := w.clock + w.delay)
      && CreationCalls(e.calls, w, e.outcome, s.daydream)
      && Gated(e.calls, w, name, s.msg, ImagePrompt(cfg, s.msg))
      && n >= 6 && e.calls[0] == WriteText(name, s.msg)
      && e.calls[n - 2] == WriteImage(name, w.image.value) && e.calls[n - 1] == WriteScene(name, Lines(v.value))
      && e.calls[n - 3] == (if s.daydream then ChooseVerse(s.msg) else Say(w.finishedLine))
  {
    CreateIllustrated(s, w, cfg);
    FinishCreated(s, w, cfg);
    PublishedShape(Create(s, w, cfg).calls, w, s.daydream, RandomString(w.letters), s.msg, ImagePrompt(cfg, s.msg),
                   w.image.value, Lines(Arbitrate(cfg.numVerses, w.poetAnswers, w.criticAnswer, w.pick).value));
  }

  /** An illustrated creation whose verse or layout fails. */
  lemma CreateUnpublished(s: State, w: World, cfg: Config)
    requires Admissible(w, cfg) && w.moderation == Flag(false) && w.image.Some? && !Publishes(s, w, cfg)
    ensures var e := Create(s, w, cfg);
      var name := RandomString(w.letters);
      && e.outcome.Crashed? && e.state == s
      && CreationCalls(e.calls, w, e.outcome, s.daydream)
      && Gated(e.calls, w, name, s.msg, ImagePrompt(cfg, s.msg))
      && |e.calls| == 4 && e.calls[0] == WriteText(name, s.msg)
  {
    CreateIllustrated(s, w, cfg);
    if Arbitrate(cfg.numVerses, w.poetAnswers, w.criticAnswer, w.pick).Failure? {
      FinishVerseFailed(s, w, cfg);
    } else {
      FinishLayoutFailed(s, w, cfg);
    }
    StoppedShape(Create(s, w, cfg).calls, w, Create(s, w, cfg).outcome, s.daydream, RandomString(w.letters), s.msg,
                 ImagePrompt(cfg, s.msg));
  }

  lemma ImageFreeGated(calls: seq<Call>, w: World, name: string, msg: string, prompt: string)
    requires ImageFree(calls)
    ensures Gated(calls, w, name, msg, prompt)
  {
  }

  lemma CreateGated(s: State, w: World, cfg: Config)
    requires Admissible(w, cfg)
    ensures Gated(Create(s, w, cfg).calls, w, RandomString(w.letters), s.msg, ImagePrompt(cfg, s.msg))
  {
    var name := RandomString(w.letters);
    var prompt := ImagePrompt(cfg, s.msg);
    if w.moderation.TransportError? {
      CreateModerationError(s, w, cfg);
      ImageFreeGated(Create(s, w, cfg).calls, w, name, s.msg, prompt);
    } else if w.moderation == Flag(true) {
      CreateFlagged(s, w, cfg);
      ImageFreeGated(Create(s, w, cfg).calls, w, name, s.msg, prompt);
    } else if w.image.None? {
      CreateImageless(s, w, cfg);
      GatedShape(Create(s, w, cfg).calls, [Say(w.failedLine)], w, name, s.msg, prompt);
    } else if Publishes(s, w, cfg) {
      CreatePublished(s, w, cfg);
    } else {
      CreateUnpublished(s, w, cfg);
    }
  }

  lemma DreamGated(s: State, w: World, cfg: Config)
    requires Admissible(w, cfg)
    ensures var e := Dream(s, w, cfg);
      Gated(e.calls, w, RandomString(w.letters), e.state.msg, ImagePrompt(cfg, e.state.msg))
  {
    var prefix := [ArtistChat(ArtistPrompt(cfg.artistBasePrompt, s.msg))];
    if w.artistAnswer.Answered? {
      var s3 := s.(msg := w.artistAnswer.message.content);
      assert Dream(s, w, cfg) == Then(prefix, Create(s3, w, cfg));
      CreateGated(s3, w, cfg);
      CreateKeepsControl(s3, w, cfg);
      GatedAfterPrefix(prefix, Create(s3, w, cfg).calls, w, RandomString(w.letters), s3.msg, ImagePrompt(cfg, s3.msg));
    } else {
      assert Dream(s, w, cfg).calls == prefix;
    }
  }

  lemma ConverseGated(s: State, w: World, cfg: Config)
    requires Admissible(w, cfg)
    ensures var e := Converse(s, w, cfg);
      Gated(e.calls, w, RandomString(w.letters), e.state.msg, ImagePrompt(cfg, e.state.msg))
  {
    var k := FirstVoiced(w.recordings);
    if k == MaxSilentLoops {
      var calls := [Say(Greeting(w))] + Records(k);
      assert Converse(s, w, cfg).calls == calls;
      assert ImageFree(calls) by {
        forall i | 0 <= i < |calls| ensures !calls[i].GenerateImage? && !calls[i].ChooseVerse? && !calls[i].WriteImage? && !calls[i].WriteScene? {
          if 1 <= i { assert calls[i] == Records(k)[i - 1]; }
        }
      }
    } else {
      var prefix := [Say(Greeting(w))] + Records(k + 1) + [Say(w.workingLine), Transcribe];
      assert ImageFree(prefix) by {
        forall i | 0 <= i < |prefix| ensures !prefix[i].GenerateImage? && !prefix[i].ChooseVerse? && !prefix[i].WriteImage? && !prefix[i].WriteScene? {
          if 1 <= i <= k + 1 { assert prefix[i] == Records(k + 1)[i - 1]; }
        }
      }
      var text := w.transcribe(w.recordings[k].samples);
      if text.Some? {
        var s3 := s.(silentLoops := k, msg := text.value);
        assert Converse(s, w, cfg) == Then(prefix, Create(s3, w, cfg));
        CreateGated(s3, w, cfg);
        CreateKeepsControl(s3, w, cfg);
        GatedAfterPrefix(prefix, Create(s3, w, cfg).calls, w, RandomString(w.letters), s3.msg, ImagePrompt(cfg, s3.msg));
      } else {
        assert Converse(s, w, cfg).calls == prefix;
      }
    }
  }

  /** Moderation gates every image request of a poll. */
  lemma ModerationGatesImage(s: State, w: World, cfg: Config)
    requires Admissible(w, cfg)
    ensures var e := Poll(s, w, cfg);
      Gated(e.calls, w, RandomString(w.letters), e.state.msg, ImagePrompt(cfg, e.state.msg))
  {
    var polled := Polled(Decoded(w, cfg), w.now, s.nextChange);
    PollEnds(s, w, cfg);
    PollCases(s, w, cfg);
    if polled == Some(Daydream) && s.consecutive + 1 <= cfg.ceiling {
      var s2 := s.(consecutive := s.consecutive + 1, daydream := true, startNew := false, silentLoops := 0);
      assert Poll(s, w, cfg) == Dream(s2, w, cfg);
      DreamCases(s2, w, cfg);
      DreamGated(s2, w, cfg);
    } else if polled == Some(Next) && 0 <= cfg.ceiling {
      var s2 := s.(consecutive := 0, daydream := false, startNew := false);
      assert Poll(s, w, cfg) == Converse(s2, w, cfg);
      ConverseGated(s2, w, cfg);
    } else {
      assert Poll(s, w, cfg).calls == [];
    }
  }

  /**
   * A creation neither records nor transcribes nor consults the artist, and
   * speaks only the failure phrase when it fails and the finished phrase
   * when a voice cycle succeeds.
   */
  predicate CreationCalls(calls: seq<Call>, w: World, outcome: Outcome, daydream: bool) {
    forall i :: 0 <= i < |calls| ==>
      && calls[i] != Record && calls[i] != Transcribe && !calls[i].ArtistChat?
      && (calls[i].Say? ==>
            || (calls[i] == Say(w.failedLine) && outcome == CreationFailed)
            || (calls[i] == Say(w.finishedLine) && outcome == Created && !daydream))
  }

  lemma CreateSpeaks(s: State, w: World, cfg: Config)
    requires Admissible(w, cfg)
    ensures var e := Create(s, w, cfg); CreationCalls(e.calls, w, e.outcome, s.daydream)
  {
    if w.moderation.TransportError? {
      CreateModerationError(s, w, cfg);
    } else if w.moderation == Flag(true) {
      CreateFlagged(s, w, cfg);
    } else if w.image.None? {
      CreateImageless(s, w, cfg);
    } else if Publishes(s, w, cfg) {
      CreatePublished(s, w, cfg);
    } else {
      CreateUnpublished(s, w, cfg);
    }
  }

  /**
   * A daydream cycle never records or transcribes, and it speaks only when
   * its creation fails, and then only the failure phrase.
   */
  lemma DaydreamsNeitherListenNorTalk(s: State, w: World, cfg: Config)
    requires Admissible(w, cfg)
    requires Polled(Decoded(w, cfg), w.now, s.nextChange) == Some(Daydream)
    ensures var e := Poll(s, w, cfg);
      && (forall i :: 0 <= i < |e.calls| ==> e.calls[i] != Record && e.calls[i] != Transcribe)
      && (forall i :: 0 <= i < |e.calls| && e.calls[i].Say? ==> e.calls[i] == Say(w.failedLine) && e.outcome == CreationFailed)
  {
    if s.consecutive + 1 <= cfg.ceiling {
      var s2 := s.(consecutive := s.consecutive + 1, daydream := true, startNew := false, silentLoops := 0);
      assert Poll(s, w, cfg) == Dream(s2, w, cfg);
      var prefix := [ArtistChat(ArtistPrompt(cfg.artistBasePrompt, s2.msg))];
      if w.artistAnswer.Answered? {
        var s3 := s2.(msg := w.artistAnswer.message.content);
        var c := Create(s3, w, cfg);
        assert Dream(s2, w, cfg) == Then(prefix, c);
        CreateSpeaks(s3, w, cfg);
        forall i | 0 <= i < |prefix + c.calls|
          ensures (prefix + c.calls)[i] != Record && (prefix + c.calls)[i] != Transcribe
          ensures (prefix + c.calls)[i].Say? ==> (prefix + c.calls)[i] == Say(w.failedLine) && c.outcome == CreationFailed
        {
          if i >= 1 { assert (prefix + c.calls)[i] == c.calls[i - 1]; }
        }
      }
    }
  }

  /**
   * A voice cycle greets, records until a recording carries voice (at most
   * ten attempts), and then says the working phrase and transcribes what it
   * heard; ten silent recordings end the cycle in silence.
   */
  lemma VoiceCycleListensThenTranscribes(s: State, w: World, cfg: Config)
    requires Admissible(w, cfg)
    requires Polled(Decoded(w, cfg), w.now, s.nextChange) == Some(Next)
    requires 0 <= cfg.ceiling
    ensures var e := Poll(s, w, cfg);
      var k := FirstVoiced(w.recordings);
      && e.state.consecutive == 0 && !e.state.daydream
      && e.state.silentLoops == k
      && (e.outcome == Silence <==> forall j :: 0 <= j < MaxSilentLoops ==> !w.recordings[j].voiced)
      && (e.outcome == Silence ==> e.calls == [Say(Greeting(w))] + Records(MaxSilentLoops))
      && (e.outcome != Silence ==>
            && k < MaxSilentLoops
            && |e.calls| >= k + 4
            && e.calls[..k + 4] == [Say(Greeting(w))] + Records(k + 1) + [Say(w.workingLine), Transcribe])
  {
    var s2 := s.(consecutive := 0, daydream := false, startNew := false);
    assert Poll(s, w, cfg) == Converse(s2, w, cfg);
    var k := FirstVoiced(w.recordings);
    if k < MaxSilentLoops {
      assert w.recordings[k].voiced;
      var prefix := [Say(Greeting(w))] + Records(k + 1) + [Say(w.workingLine), Transcribe];
      var text := w.transcribe(w.recordings[k].samples);
      if text.Some? {
        var s3 := s2.(silentLoops := k, msg := text.value);
        var c := Create(s3, w, cfg);
        assert Converse(s2, w, cfg) == Then(prefix, c);
        CreateKeepsControl(s3, w, cfg);
        assert (prefix + c.calls)[..k + 4] == prefix;
      }
    }
  }

  /** How a creation ends: the failure phrase last, or the image and the screen saved last. */
  lemma CreateOutcomes(s: State, w: World, cfg: Config)
    requires Admissible(w, cfg)
    ensures var e := Create(s, w, cfg);
      var name := RandomString(w.letters);
      var n := |e.calls|;
      && n >= 2
      && e.calls[0] == WriteText(name, s.msg)
      && (e.outcome == CreationFailed ==>
            && e.calls[n - 1] == Say(w.failedLine)
            && (w.moderation == Flag(true) || (w.moderation == Flag(false) && w.image.None?)))
      && (e.outcome == Created ==>
            && n >= 6
            && w.moderation == Flag(false)
            && w.image.Some?
            && Arbitrate(cfg.numVerses, w.poetAnswers, w.criticAnswer, w.pick).Success?
            && e.calls[n - 2] == WriteImage(name, w.image.value)
            && e.calls[n - 1] == WriteScene(name, Lines(Arbitrate(cfg.numVerses, w.poetAnswers, w.criticAnswer, w.pick).value))
            && e.calls[n - 3] == (if s.daydream then ChooseVerse(s.msg) else Say(w.finishedLine))
            && e.state.hasLongest)
  {
    if w.moderation.TransportError? {
      CreateModerationError(s, w, cfg);
    } else if w.moderation == Flag(true) {
      CreateFlagged(s, w, cfg);
    } else if w.image.None? {
      CreateImageless(s, w, cfg);
    } else if Publishes(s, w, cfg) {
      CreatePublished(s, w, cfg);
    } else {
      CreateUnpublished(s, w, cfg);
    }
  }

  /** A daydream that reaches creation is the artist's request, then Create on its answer. */
  lemma DreamCreation(s: State, w: World, cfg: Config)
    requires Admissible(w, cfg)
    requires Dream(s, w, cfg).outcome == Created || Dream(s, w, cfg).outcome == CreationFailed
    ensures w.artistAnswer.Answered?
    ensures Dream(s, w, cfg) == Then([ArtistChat(ArtistPrompt(cfg.artistBasePrompt, s.msg))],
      Create(s.(msg := w.artistAnswer.message.content), w, cfg))
  {
    DreamCases(s, w, cfg);
  }

  /** A voice cycle that reaches creation heard a phrase: its calls, then Create on the transcription. */
  lemma ConverseCreation(s: State, w: World, cfg: Config)
    requires Admissible(w, cfg)
    requires Converse(s, w, cfg).outcome == Created || Converse(s, w, cfg).outcome == CreationFailed
    ensures var k := FirstVoiced(w.recordings);
      && k < MaxSilentLoops && w.transcribe(w.recordings[k].samples).Some?
      && Converse(s, w, cfg) == Then([Say(Greeting(w))] + Records(k + 1) + [Say(w.workingLine), Transcribe],
           Create(s.(silentLoops := k, msg := w.transcribe(w.recordings[k].samples).value), w, cfg))
  {
    ConverseCases(s, w, cfg);
  }

  /** Every creation of a poll is Create run after the cycle's own calls, on the counted state. */
  lemma PollCreation(s: State, w: World, cfg: Config) returns (prefix: seq<Call>, s3: State)
    requires Admissible(w, cfg)
    requires Poll(s, w, cfg).outcome == Created || Poll(s, w, cfg).outcome == CreationFailed
    ensures Poll(s, w, cfg) == Then(prefix, Create(s3, w, cfg))
    ensures s3.nextChange == s.nextChange
    ensures s3.daydream <==> Polled(Decoded(w, cfg), w.now, s.nextChange) == Some(Daydream)
    ensures s3.consecutive == Counted(s.consecutive, Polled(Decoded(w, cfg), w.now, s.nextChange).value)
  {
    var polled := Polled(Decoded(w, cfg), w.now, s.nextChange);
    PollEnds(s, w, cfg);
    PollCases(s, w, cfg);
    if polled == Some(Daydream) && s.consecutive + 1 <= cfg.ceiling {
      var s2 := s.(consecutive := s.consecutive + 1, daydream := true, startNew := false, silentLoops := 0);
      assert Poll(s, w, cfg) == Dream(s2, w, cfg);
      DreamCreation(s2, w, cfg);
      prefix := [ArtistChat(ArtistPrompt(cfg.artistBasePrompt, s2.msg))];
      s3 := s2.(msg := w.artistAnswer.message.content);
    } else {
      var s2 := s.(consecutive := 0, daydream := false, startNew := false);
      assert Poll(s, w, cfg) == Converse(s2, w, cfg);
      ConverseCreation(s2, w, cfg);
      var k := FirstVoiced(w.recordings);
      prefix := [Say(Greeting(w))] + Records(k + 1) + [Say(w.workingLine), Transcribe];
      s3 := s2.(silentLoops := k, msg := w.transcribe(w.recordings[k].samples).value);
    }
  }

  /**
   * A failed creation is told with the failure phrase, spoken last, and
   * leaves the trigger time as it was; only the counter moves.
   */
  lemma FailedCreationKeepsTimer(s: State, w: World, cfg: Config)
    requires Admissible(w, cfg)
    requires Poll(s, w, cfg).outcome == CreationFailed
    ensures var e := Poll(s, w, cfg);
      && e.state.nextChange == s.nextChange
      && |e.calls| > 0 && e.calls[|e.calls| - 1] == Say(w.failedLine)
      && (w.moderation == Flag(true) || (w.moderation == Flag(false) && w.image.None?))
  {
    var prefix, s3 := PollCreation(s, w, cfg);
    var c := Create(s3, w, cfg);
    CreateKeepsControl(s3, w, cfg);
    CreateOutcomes(s3, w, cfg);
    assert (prefix + c.calls)[|prefix + c.calls| - 1] == c.calls[|c.calls| - 1];
  }

  /**
   * After a failed creation on a timer-triggered cycle, the timer is still
   * expired, so every later poll is a daydream again, whatever it decodes.
   */
  lemma FailedTimerCycleRecurs(s: State, w: World, cfg: Config, later: World)
    requires Admissible(w, cfg)
    requires Poll(s, w, cfg).outcome == CreationFailed
    requires s.nextChange <= w.now <= later.now
    ensures Polled(Decoded(later, cfg), later.now, Poll(s, w, cfg).state.nextChange) == Some(Daydream)
    ensures Poll(s, w, cfg).state.consecutive == s.consecutive + 1
  {
    FailedCreationKeepsTimer(s, w, cfg);
    PollFollowsThrottle(s, w, cfg);
  }

  /**
   * A successful creation saves the text, then the image and the screen
   * under one random name, speaks the finished phrase on voice cycles only,
   * and redraws the trigger time within the configured delay.
   */
  lemma CreationSavesArtifacts(s: State, w: World, cfg: Config)
    requires Admissible(w, cfg)
    requires Poll(s, w, cfg).outcome == Created
    ensures var e := Poll(s, w, cfg);
      var name := RandomString(w.letters);
      var n := |e.calls|;
      && |name| == NameLength && (forall i :: 0 <= i < |name| ==> 'a' <= name[i] <= 'z')
      && n >= 6
      && WriteText(name, e.state.msg) in e.calls
      && w.moderation == Flag(false) && w.image.Some?
      && Arbitrate(cfg.numVerses, w.poetAnswers, w.criticAnswer, w.pick).Success?
      && e.calls[n - 2] == WriteImage(name, w.image.value)
      && e.calls[n - 1] == WriteScene(name, Lines(Arbitrate(cfg.numVerses, w.poetAnswers, w.criticAnswer, w.pick).value))
      && e.calls[n - 3] == (if e.state.daydream then ChooseVerse(e.state.msg) else Say(w.finishedLine))
      && e.state.hasLongest
      && w.clock + MinDelay(cfg) <= e.state.nextChange <= w.clock + MaxDelay(cfg)
  {
    var prefix, s3 := PollCreation(s, w, cfg);
    var c := Create(s3, w, cfg);
    CreateKeepsControl(s3, w, cfg);
    CreateOutcomes(s3, w, cfg);
    var all := prefix + c.calls;
    assert all[|prefix|] == c.calls[0];
    assert all[|all| - 1] == c.calls[|c.calls| - 1];
    assert all[|all| - 2] == c.calls[|c.calls| - 2];
    assert all[|all| - 3] == c.calls[|c.calls| - 3];
  }

  /** The state and the calls of a run of polls; the run stops at shutdown or at a crash. */
  function RunPolls(s: State, ws: seq<World>, cfg: Config): (State, seq<Call>)
    requires forall i :: 0 <= i < |ws| ==> Admissible(ws[i], cfg)
    decreases |ws|
  {
    if ws == [] then (s, [])
    else
      var e := Poll(s, ws[0], cfg);
      if e.outcome == ShutDown || e.outcome.Crashed? then (e.state, e.calls)
      else
        var rest := RunPolls(e.state, ws[1..], cfg);
        (rest.0, e.calls + rest.1)
  }

  /**
   * Once the counter is over the ceiling, nothing is spoken, recorded,
   * requested or saved until a Next event resets it.
   */
  lemma {:induction false} ThrottledUntilNext(s: State, ws: seq<World>, cfg: Config)
    requires forall i :: 0 <= i < |ws| ==> Admissible(ws[i], cfg) && Decoded(ws[i], cfg) != Some(Next)
    requires s.consecutive > cfg.ceiling
    ensures RunPolls(s, ws, cfg).1 == []
    ensures RunPolls(s, ws, cfg).0.consecutive > cfg.ceiling
    decreases |ws|
  {
    if ws != [] {
      var e := Poll(s, ws[0], cfg);
      PollFollowsThrottle(s, ws[0], cfg);
      assert e.calls == [] && e.state.consecutive > cfg.ceiling;
      if !(e.outcome == ShutDown || e.outcome.Crashed?) {
        assert forall i :: 0 <= i < |ws| - 1 ==> ws[1..][i] == ws[i + 1];
        ThrottledUntilNext(e.state, ws[1..], cfg);
      }
    }
  }
}

=== FILE: speech.dfy ===
/**
 * The speech cache: synthesized audio is stored under a key made of the voice
 * settings followed by the text, synthesized only on a miss, and the stored
 * audio is what gets played.  The on-disk directory is a map; the synthesis
 * service is an oracle whose answer is passed in.
 */
module Speech {
  import opened Wrappers

  type Audio = seq<byte>

  /** The speech service's fixed settings. */
  datatype Voice = Voice(language: string, gender: string, name: string)

  /** The cache key: the three settings and the text, concatenated without separators. */
  function CacheKey(v: Voice, text: string): (k: string)
    ensures |k| == |v.language| + |v.gender| + |v.name| + |text|
    ensures k[..|v.language|] == v.language
    ensures k[|k| - |text|..] == text
  {
    v.language + v.gender + v.name + text
  }

  /** Distinct settings/text pairs can share a key, since nothing separates the parts. */
  lemma CacheKeyNotInjective()
    ensures CacheKey(Voice("en-US", "Female", "Aria"), "Hello") == CacheKey(Voice("en-US", "Female", "AriaH"), "ello")
  {
  }

  /** What one call to speak leaves behind. */
  datatype Spoken = Spoken(files: map<string, Audio>, synthesized: bool, played: Audio)

  /** One speak on a cache directory, with `synth` the audio the service would return. */
  function Speak(files: map<string, Audio>, key: string, synth: Audio): (s: Spoken)
    ensures key in s.files && s.played == s.files[key]
    ensures s.synthesized <==> key !in files
    ensures s.files.Keys == files.Keys + {key}
    ensures forall k :: k in files ==> k in s.files && s.files[k] == files[k]
    ensures !s.synthesized ==> s.files == files
    ensures s.synthesized ==> s.files == files[key := synth] && s.played == synth
  {
    if key in files then Spoken(files, false, files[key])
    else Spoken(files[key := synth], true, synth)
  }

  /** A second speak of the same key synthesizes nothing and plays the same audio. */
  lemma SpeakTwice(files: map<string, Audio>, key: string, first: Audio, second: Audio)
    ensures var s1 := Speak(files, key, first);
            var s2 := Speak(s1.files, key, second);
            !s2.synthesized && s2.played == s1.played && s2.files == s1.files
  {
  }

  /** The keys of a sequence of speak requests. */
  function Keys(requests: seq<(string, Audio)>): set<string> {
    set i | 0 <= i < |requests| :: requests[i].0
  }

  /** The cache directory and the number of syntheses after a sequence of speak requests. */
  function SpeakAll(files: map<string, Audio>, requests: seq<(string, Audio)>): (r: (map<string, Audio>, nat))
    ensures files.Keys <= r.0.Keys
    ensures r.1 <= |requests|
    decreases |requests|
  {
    if requests == [] then (files, 0)
    else
      var s := Speak(files, requests[0].0, requests[0].1);
      var rest := SpeakAll(s.files, requests[1..]);
      (rest.0, rest.1 + if s.synthesized then 1 else 0)
  }

  /** Speaking one more request extends the run by exactly one Speak step. */
  lemma {:induction false} SpeakAllSnoc(files: map<string, Audio>, requests: seq<(string, Audio)>, r: (string, Audio))
    ensures var before := SpeakAll(files, requests);
      var s := Speak(before.0, r.0, r.1);
      SpeakAll(files, requests + [r]) == (s.files, before.1 + if s.synthesized then 1 else 0)
    decreases |requests|
  {
    if requests == [] {
      assert requests + [r] == [r];
    } else {
      var s0 := Speak(files, requests[0].0, requests[0].1);
      assert (requests + [r])[0] == requests[0];
      assert (requests + [r])[1..] == requests[1..] + [r];
      SpeakAllSnoc(s0.files, requests[1..], r);
    }
  }

  lemma KeysCons(requests: seq<(string, Audio)>)
    requires requests != []
    ensures Keys(requests) == {requests[0].0} + Keys(requests[1..])
  {
    var tail := requests[1..];
    forall k | k in Keys(requests) ensures k in {requests[0].0} + Keys(tail) {
      var i :| 0 <= i < |requests| && requests[i].0 == k;
      if i > 0 { assert tail[i - 1].0 == k; }
    }
    forall k | k in Keys(tail) ensures k in Keys(requests) {
      var i :| 0 <= i < |tail| && tail[i].0 == k;
      assert requests[i + 1].0 == k;
    }
  }

  /** Counting the keys not yet cached, one key at a time. */
  lemma NewKeysCons(cached: set<string>, key: string, rest: set<string>)
    ensures |({key} + rest) - cached| == |rest - (cached + {key})| + (if key in cached then 0 else 1)
  {
    var later := rest - (cached + {key});
    if key in cached {
      assert ({key} + rest) - cached == later;
    } else {
      assert ({key} + rest) - cached == later + {key};
      assert key !in later;
    }
  }

  /** The directory after a sequence of requests holds the old entries unchanged plus one per new key. */
  lemma {:induction false} SpeakAllKeeps(files: map<string, Audio>, requests: seq<(string, Audio)>)
    ensures SpeakAll(files, requests).0.Keys == files.Keys + Keys(requests)
    ensures forall k :: k in files ==> SpeakAll(files, requests).0[k] == files[k]
    decreases |requests|
  {
    if requests == [] {
      assert Keys(requests) == {};
    } else {
      var s := Speak(files, requests[0].0, requests[0].1);
      SpeakAllKeeps(s.files, requests[1..]);
      KeysCons(requests);
    }
  }

  /**
   * Synthesis happens exactly once per distinct key that was not already
   * cached, however often each text is spoken.
   */
  lemma {:induction false} SynthesisOncePerKey(files: map<string, Audio>, requests: seq<(string, Audio)>)
    ensures SpeakAll(files, requests).1 == |Keys(requests) - files.Keys|
    decreases |requests|
  {
    if requests == [] {
      assert Keys(requests) == {};
    } else {
      var key, tail := requests[0].0, requests[1..];
      var s := Speak(files, key, requests[0].1);
      var rest := SpeakAll(s.files, tail);
      assert SpeakAll(files, requests).1 == rest.1 + if s.synthesized then 1 else 0;
      SynthesisOncePerKey(s.files, tail);
      assert s.files.Keys == files.Keys + {key};
      KeysCons(requests);
      NewKeysCons(files.Keys, key, Keys(tail));
    }
  }

  /** Syntheses over any sequence of requests never exceed the number of distinct keys. */
  lemma SynthesisBound(files: map<string, Audio>, requests: seq<(string, Audio)>)
    ensures SpeakAll(files, requests).1 <= |Keys(requests)|
  {
    SynthesisOncePerKey(files, requests);
    assert Keys(requests) - files.Keys <= Keys(requests);
    SubsetCard(Keys(requests) - files.Keys, Keys(requests));
  }

  /** Speaking more requests never lowers the synthesis count. */
  lemma SynthesesGrow(files: map<string, Audio>, a: seq<(string, Audio)>, b: seq<(string, Audio)>)
    ensures SpeakAll(files, a).1 <= SpeakAll(files, a + b).1
  {
    SynthesisOncePerKey(files, a);
    SynthesisOncePerKey(files, a + b);
    forall k | k in Keys(a) ensures k in Keys(a + b) {
      var i :| 0 <= i < |a| && a[i].0 == k;
      assert (a + b)[i].0 == k;
    }
    SubsetCard(Keys(a) - files.Keys, Keys(a + b) - files.Keys);
  }

  lemma SubsetCard<T>(a: set<T>, b: set<T>)
    requires a <= b
    ensures |a| <= |b|
  {
    assert b == a + (b - a);
  }

  /** The speech cache of one process: its voice, the cache directory, and counters for the two oracles. */
  class SpeechCache {
    const voice: Voice
    var files: map<string, Audio>
    /** Calls made to the synthesis service. */
    var syntheses: nat
    /** Audio handed to the player, in order. */
    var played: seq<Audio>

    constructor (voice: Voice, existing: map<string, Audio>)
      ensures this.voice == voice && files == existing
      ensures syntheses == 0 && played == []
    {
      this.voice := voice;
      files := existing;
      syntheses := 0;
      played := [];
    }

    /** speak_text: synthesize and store on a miss, then play the stored audio. */
    method SpeakText(text: string, synth: Audio)
      modifies this
      ensures var s := Speak(old(files), CacheKey(voice, text), synth);
        files == s.files && played == old(played) + [s.played] &&
        syntheses == old(syntheses) + (if s.synthesized then 1 else 0)
    {
      var key := CacheKey(voice, text);
      if key !in files {
        syntheses := syntheses + 1;
        files := files[key := synth];
      }
      played := played + [files[key]];
    }
  }
}

=== FILE: throttle.dfy ===
/**
 * The daydream throttle: how one poll changes the consecutive-daydream
 * counter and the next automatic trigger time, and what that implies for
 * runs of polls.
 */
module Throttle {
  import opened Wrappers
  import opened Events

  /** The two values that gate autonomous cycles. */
  datatype Control = Control(consecutive: int, nextChange: int)

  /**
   * One poll: the clock when polling, the event decoded from the queue, and
   * the clock reading and random delay used if the trigger time is redrawn.
   */
  datatype Tick = Tick(now: int, decoded: Option<Status>, clock: int, delay: int)

  function Max(a: int, b: int): int {
    if a < b then b else a
  }

  /** Timer expiry replaces whatever was polled, Quit and Next included, by Daydream. */
  function Polled(decoded: Option<Status>, now: int, nextChange: int): (s: Option<Status>)
    ensures now >= nextChange ==> s == Some(Daydream)
    ensures now < nextChange ==> s == decoded
  {
    if now >= nextChange then Some(Daydream) else decoded
  }

  /** Next resets the counter, Daydream adds one. */
  function Counted(consecutive: int, status: Status): (n: int)
    ensures status == Next ==> n == 0
    ensures status == Daydream ==> n == consecutive + 1
    ensures status == Quit ==> n == consecutive
  {
    match status
    case Next => 0
    case Daydream => consecutive + 1
    case Quit => consecutive
  }

  /** The poll starts a cycle (voice or daydream). */
  predicate Starts(c: Control, t: Tick) {
    var s := Polled(t.decoded, t.now, c.nextChange);
    s == Some(Next) || s == Some(Daydream)
  }

  /** The cycle is skipped because the counter went over the ceiling. */
  predicate IsThrottled(c: Control, t: Tick, ceiling: int) {
    Starts(c, t) && Counted(c.consecutive, Polled(t.decoded, t.now, c.nextChange).value) > ceiling
  }

  /** The cycle goes on to record or daydream and then create. */
  predicate Generates(c: Control, t: Tick, ceiling: int) {
    Starts(c, t) && !IsThrottled(c, t, ceiling)
  }

  /**
   * The control values after one poll; `created` says whether the cycle's
   * creation succeeded.  The trigger time is redrawn only on a throttled
   * cycle and after a successful creation.
   */
  function After(c: Control, t: Tick, ceiling: int, created: bool): (r: Control)
    ensures !Starts(c, t) ==> r == c
    ensures IsThrottled(c, t, ceiling) ==> r.nextChange == t.clock + t.delay
    ensures Generates(c, t, ceiling) ==> r.nextChange == if created then t.clock + t.delay else c.nextChange
  {
    match Polled(t.decoded, t.now, c.nextChange)
    case None => c
    case Some(Quit) => c
    case Some(status) =>
      var n := Counted(c.consecutive, status);
      if n > ceiling then Control(n, t.clock + t.delay)
      else Control(n, if created then t.clock + t.delay else c.nextChange)
  }

  /** The control values after a run of polls. */
  function Run(c: Control, ticks: seq<Tick>, created: seq<bool>, ceiling: int): Control
    requires |created| == |ticks|
    decreases |ticks|
  {
    if ticks == [] then c
    else Run(After(c, ticks[0], ceiling, created[0]), ticks[1..], created[1..], ceiling)
  }

  /** How many polls of a run go on to generate. */
  function Generated(c: Control, ticks: seq<Tick>, created: seq<bool>, ceiling: int): nat
    requires |created| == |ticks|
    decreases |ticks|
  {
    if ticks == [] then 0
    else
      (if Generates(c, ticks[0], ceiling) then 1 else 0) +
      Generated(After(c, ticks[0], ceiling, created[0]), ticks[1..], created[1..], ceiling)
  }

  /** No poll of the run decodes a Next event. */
  predicate NoNext(ticks: seq<Tick>) {
    forall i :: 0 <= i < |ticks| ==> ticks[i].decoded != Some(Next)
  }

  /**
   * Without a Next event, the counter never goes down, and at most
   * ceiling - consecutive cycles generate, however the creations turn out.
   */
  lemma {:induction false} DaydreamBudget(c: Control, ticks: seq<Tick>, created: seq<bool>, ceiling: int)
    requires |created| == |ticks|
    requires NoNext(ticks)
    ensures Generated(c, ticks, created, ceiling) <= Max(0, ceiling - c.consecutive)
    ensures Run(c, ticks, created, ceiling).consecutive >= c.consecutive
    decreases |ticks|
  {
    if ticks != [] {
      var c' := After(c, ticks[0], ceiling, created[0]);
      assert NoNext(ticks[1..]) by {
        forall i | 0 <= i < |ticks| - 1 ensures ticks[1..][i].decoded != Some(Next) {
          assert ticks[1..][i] == ticks[i + 1];
        }
      }
      DaydreamBudget(c', ticks[1..], created[1..], ceiling);
      assert ticks[0].decoded != Some(Next);
      if Starts(c, ticks[0]) {
        assert Polled(ticks[0].decoded, ticks[0].now, c.nextChange) == Some(Daydream);
        assert c'.consecutive == c.consecutive + 1;
      } else {
        assert c' == c;
      }
    }
  }

  /**
   * Once the counter is over the ceiling, no cycle generates until a Next
   * event resets it, and the counter stays over the ceiling.
   */
  lemma CeilingHolds(c: Control, ticks: seq<Tick>, created: seq<bool>, ceiling: int)
    requires |created| == |ticks|
    requires NoNext(ticks)
    requires c.consecutive > ceiling
    ensures Generated(c, ticks, created, ceiling) == 0
    ensures Run(c, ticks, created, ceiling).consecutive > ceiling
  {
    DaydreamBudget(c, ticks, created, ceiling);
  }

  /**
   * A timer-triggered cycle that fails leaves the trigger time where it was,
   * so every later poll is again a Daydream, whatever it decodes.
   */
  lemma FailedTimerCycleRepeats(c: Control, t: Tick, ceiling: int, later: Tick)
    requires t.now >= c.nextChange
    requires !IsThrottled(c, t, ceiling)
    requires later.now >= t.now
    ensures After(c, t, ceiling, false).nextChange == c.nextChange
    ensures Polled(later.decoded, later.now, After(c, t, ceiling, false).nextChange) == Some(Daydream)
  {
  }

  /**
   * Once the timer has expired, a run of failing cycles consists of
   * ceiling - consecutive daydreams that generate, then one throttled poll
   * that finally redraws the trigger time.
   */
  lemma {:induction false} FailingDaydreamsReachCeiling(c: Control, ticks: seq<Tick>, created: seq<bool>, ceiling: int)
    requires |created| == |ticks| == Max(0, ceiling - c.consecutive) + 1
    requires forall i :: 0 <= i < |ticks| ==> ticks[i].now >= c.nextChange && !created[i]
    ensures Generated(c, ticks, created, ceiling) == |ticks| - 1
    ensures Run(c, ticks, created, ceiling) ==
      Control(c.consecutive + |ticks|, ticks[|ticks| - 1].clock + ticks[|ticks| - 1].delay)
    decreases |ticks|
  {
    var t := ticks[0];
    var c' := After(c, t, ceiling, created[0]);
    assert Polled(t.decoded, t.now, c.nextChange) == Some(Daydream);
    if c.consecutive + 1 > ceiling {
      assert |ticks| == 1;
      assert ticks[1..] == [];
    } else {
      assert c' == Control(c.consecutive + 1, c.nextChange);
      assert forall i :: 0 <= i < |ticks| - 1 ==> ticks[1..][i] == ticks[i + 1] && created[1..][i] == created[i + 1];
      FailingDaydreamsReachCeiling(c', ticks[1..], created[1..], ceiling);
      assert ticks[1..][|ticks| - 2] == ticks[|ticks| - 1];
    }
  }
}

=== FILE: verse.dfy ===
/**
 * The verse arbiter: ask the poet persona for several candidates, show them
 * all to the critic persona, and take the first digit of the critic's answer
 * as a 1-based index into the candidates.
 */
module Verse {
  import opened Wrappers
  import opened Chat

  datatype ArbiterError = PoetFailed | CriticFailed | IndexError

  // ---------------------------------------------------------------- digits

  predicate IsDigit(c: char) {
    '0' <= c <= '9'
  }

  function DigitValue(c: char): (d: nat)
    requires IsDigit(c)
    ensures d <= 9
  {
    (c as int - '0' as int) as nat
  }

  function DigitChar(d: nat): (c: char)
    requires d <= 9
    ensures IsDigit(c) && DigitValue(c) == d
  {
    ('0' as int + d) as char
  }

  /** The decimal text of a natural number, as an f-string renders an int. */
  function Decimal(n: nat): (s: string)
    ensures |s| >= 1
    ensures forall i :: 0 <= i < |s| ==> IsDigit(s[i])
  {
    if n < 10 then [DigitChar(n)] else Decimal(n / 10) + [DigitChar(n % 10)]
  }

  /** Reads a string of decimal digits back as a number. */
  function ParseDecimal(s: string): nat
    requires forall i :: 0 <= i < |s| ==> IsDigit(s[i])
  {
    if s == [] then 0 else ParseDecimal(s[..|s| - 1]) * 10 + DigitValue(s[|s| - 1])
  }

  /** The most significant decimal digit of n. */
  function Leading(n: nat): (d: nat)
    ensures d <= 9
    ensures n > 0 ==> d > 0
  {
    if n < 10 then n else Leading(n / 10)
  }

  lemma {:induction false} DecimalRoundTrip(n: nat)
    ensures ParseDecimal(Decimal(n)) == n
  {
    if n >= 10 {
      var s := Decimal(n);
      assert s[..|s| - 1] == Decimal(n / 10);
      DecimalRoundTrip(n / 10);
    }
  }

  lemma {:induction false} DecimalStartsWithLeading(n: nat)
    ensures Decimal(n)[0] == DigitChar(Leading(n))
  {
    if n >= 10 {
      DecimalStartsWithLeading(n / 10);
    }
  }

  // ------------------------------------------------------- the digit scan

  /** Position of the first digit of s, or |s| when there is none. */
  function DigitIndex(s: string): (k: nat)
    ensures k <= |s|
    ensures forall j :: 0 <= j < k ==> !IsDigit(s[j])
    ensures k < |s| ==> IsDigit(s[k])
  {
    if s == [] then 0
    else if IsDigit(s[0]) then 0
    else 1 + DigitIndex(s[1..])
  }

  /** The value of the first digit character of s, if any. */
  function FirstDigit(s: string): (r: Option<nat>)
    ensures r.None? <==> forall j :: 0 <= j < |s| ==> !IsDigit(s[j])
    ensures r.Some? ==> r.value <= 9
    ensures r.Some? ==> DigitIndex(s) < |s| && r.value == DigitValue(s[DigitIndex(s)])
  {
    var k := DigitIndex(s);
    if k < |s| then Some(DigitValue(s[k])) else None
  }

  lemma {:induction false} DigitIndexSkipsPrefix(p: string, s: string)
    requires forall j :: 0 <= j < |p| ==> !IsDigit(p[j])
    ensures DigitIndex(p + s) == |p| + DigitIndex(s)
  {
    if p != [] {
      assert (p + s)[0] == p[0];
      assert (p + s)[1..] == p[1..] + s;
      DigitIndexSkipsPrefix(p[1..], s);
    } else {
      assert p + s == s;
    }
  }

  lemma FirstDigitSkipsPrefix(p: string, s: string)
    requires forall j :: 0 <= j < |p| ==> !IsDigit(p[j])
    ensures FirstDigit(p + s) == FirstDigit(s)
  {
    DigitIndexSkipsPrefix(p, s);
    var k := DigitIndex(s);
    if k < |s| {
      assert (p + s)[|p| + k] == s[k];
    }
  }

  // ------------------------------------------------------------ selection

  /** Python list indexing, negative indices counting from the end. */
  function PyIndex<T>(xs: seq<T>, i: int): (r: Result<T, ArbiterError>)
    ensures r.Success? <==> -|xs| <= i < |xs|
    ensures 0 <= i < |xs| ==> r == Success(xs[i])
    ensures -|xs| <= i < 0 ==> r == Success(xs[|xs| + i])
  {
    if 0 <= i < |xs| then Success(xs[i])
    else if -|xs| <= i < 0 then Success(xs[|xs| + i])
    else Failure(IndexError)
  }

  /**
   * The choice made from the critic's verdict: candidate d-1 for the first
   * digit d (so 0 picks the last one), or the random candidate `pick` when the
   * verdict holds no digit.
   */
  function Choose(verses: seq<string>, verdict: string, pick: nat): (r: Result<string, ArbiterError>)
    requires |verses| > 0 ==> pick < |verses|
    ensures r.Success? ==> r.value in verses
    ensures r.Failure? <==>
      |verses| == 0 || (FirstDigit(verdict).Some? && FirstDigit(verdict).value > |verses|)
    ensures FirstDigit(verdict).Some? && 1 <= FirstDigit(verdict).value <= |verses| ==>
      r == Success(verses[FirstDigit(verdict).value - 1])
    ensures FirstDigit(verdict) == Some(0) && |verses| > 0 ==> r == Success(verses[|verses| - 1])
    ensures FirstDigit(verdict).None? && |verses| > 0 ==> r == Success(verses[pick])
  {
    match FirstDigit(verdict)
    case Some(d) => PyIndex(verses, d - 1)
    case None => if |verses| > 0 then Success(verses[pick]) else Failure(IndexError)
  }

  // ------------------------------------------------------ critic message

  function PoemLine(i: nat, verse: string): string {
    "Poem " + Decimal(i) + ": " + verse + "\n"
  }

  /** The lines for `verses`, numbered from `first`. */
  function PoemLines(verses: seq<string>, first: nat): string
  {
    if verses == [] then "" else PoemLine(first, verses[0]) + PoemLines(verses[1..], first + 1)
  }

  function CriticHeader(theme: string): string {
    "Theme: " + theme + "\n"
  }

  /** The single message sent to the critic: the theme, then every candidate with its 1-based number. */
  function CriticMessage(theme: string, verses: seq<string>): (m: string)
    ensures CriticHeader(theme) <= m
    ensures verses == [] ==> m == CriticHeader(theme)
  {
    CriticHeader(theme) + PoemLines(verses, 1)
  }

  lemma {:induction false} PoemLinesAppend(verses: seq<string>, v: string, first: nat)
    ensures PoemLines(verses + [v], first) == PoemLines(verses, first) + PoemLine(first + |verses|, v)
  {
    if verses == [] {
      assert [v][1..] == [];
    } else {
      assert (verses + [v])[1..] == verses[1..] + [v];
      PoemLinesAppend(verses[1..], v, first + 1);
    }
  }

  lemma {:induction false} PoemLinesSplit(verses: seq<string>, i: nat, first: nat)
    requires i <= |verses|
    ensures PoemLines(verses, first) == PoemLines(verses[..i], first) + PoemLines(verses[i..], first + i)
  {
    if i > 0 {
      assert verses[..i][1..] == verses[1..][..i - 1];
      assert verses[i..] == verses[1..][i - 1..];
      PoemLinesSplit(verses[1..], i - 1, first + 1);
    } else {
      assert verses[..0] == [] && verses[0..] == verses;
    }
  }

  /** The i-th candidate (0-based) opens the lines that start at it. */
  lemma PoemLinesFrom(verses: seq<string>, i: nat)
    requires i < |verses|
    ensures PoemLines(verses[i..], i + 1) == PoemLine(i + 1, verses[i]) + PoemLines(verses[i + 1..], i + 2)
  {
    assert verses[i..][1..] == verses[i + 1..];
  }

  /** The critic message shows the i-th candidate (0-based) as "Poem i+1: ..." after all earlier ones. */
  lemma CriticMessageListsEach(theme: string, verses: seq<string>, i: nat)
    requires i < |verses|
    ensures CriticMessage(theme, verses) ==
      CriticHeader(theme) + PoemLines(verses[..i], 1) + PoemLine(i + 1, verses[i]) + PoemLines(verses[i + 1..], i + 2)
  {
    PoemLinesSplit(verses, i, 1);
    PoemLinesFrom(verses, i);
    var h, a, b, c := CriticHeader(theme), PoemLines(verses[..i], 1), PoemLine(i + 1, verses[i]), PoemLines(verses[i + 1..], i + 2);
    AppendAssoc(h, a, b + c);
    AppendAssoc(h + a, b, c);
  }

  /** Accumulates the critic message candidate by candidate, as the source's loop does. */
  method BuildCriticMessage(theme: string, verses: seq<string>) returns (m: string)
    ensures m == CriticMessage(theme, verses)
  {
    m := CriticHeader(theme);
    var i := 0;
    while i < |verses|
      invariant 0 <= i <= |verses|
      invariant m == CriticHeader(theme) + PoemLines(verses[..i], 1)
    {
      PoemLinesAppend(verses[..i], verses[i], 1);
      assert verses[..i + 1] == verses[..i] + [verses[i]];
      m := m + PoemLine(i + 1, verses[i]);
      i := i + 1;
    }
    assert verses[..i] == verses;
  }

  /**
   * A verdict that repeats a candidate's label "Poem i" before any other digit
   * selects candidate i when i is a single digit, and the candidate numbered
   * by i's leading digit otherwise ("Poem 12" selects poem 1).
   */
  lemma EchoedLabelSelects(verses: seq<string>, i: nat, rest: string, pick: nat)
    requires 1 <= i <= |verses| && pick < |verses|
    ensures i <= 9 ==> Choose(verses, "Poem " + Decimal(i) + rest, pick) == Success(verses[i - 1])
    ensures Choose(verses, "Poem " + Decimal(i) + rest, pick) == Success(verses[Leading(i) - 1])
  {
    var s := Decimal(i) + rest;
    FirstDigitSkipsPrefix("Poem ", s);
    assert "Poem " + Decimal(i) + rest == "Poem " + s;
    DecimalStartsWithLeading(i);
    assert DigitIndex(s) == 0;
    assert FirstDigit(s) == Some(Leading(i));
    assert Leading(i) <= i by { LeadingAtMost(i); }
  }

  lemma {:induction false} LeadingAtMost(n: nat)
    ensures Leading(n) <= n
  {
    if n >= 10 {
      LeadingAtMost(n / 10);
    }
  }

  /** Only the first digit of the verdict counts: "12" picks the first candidate, not the twelfth. */
  lemma VerdictTwelvePicksFirst(verses: seq<string>, pick: nat)
    requires |verses| >= 1 && pick < |verses|
    ensures Choose(verses, "12", pick) == Success(verses[0])
  {
    assert DigitIndex("12") == 0;
  }

  // ----------------------------------------------------------- the arbiter

  /** How many times `for _ in range(n)` runs. */
  function RangeCount(n: int): nat {
    if n < 0 then 0 else n
  }

  function PoetMessage(basePrompt: string, theme: string): string {
    basePrompt + " " + theme
  }

  /** Position of the first poet answer that failed, or |answers| when all succeeded. */
  function FirstUnavailable(answers: seq<Completion>): (k: nat)
    ensures k <= |answers|
    ensures forall j :: 0 <= j < k ==> answers[j].Answered?
    ensures k < |answers| ==> answers[k].Unavailable?
  {
    if answers == [] then 0
    else if answers[0].Unavailable? then 0
    else 1 + FirstUnavailable(answers[1..])
  }

  /** The turns of the first `n` poet answers, in order. */
  function Replies(answers: seq<Completion>, n: nat): (ts: seq<Turn>)
    requires n <= |answers|
    requires forall j :: 0 <= j < n ==> answers[j].Answered?
    ensures |ts| == n
  {
    if n == 0 then [] else Replies(answers, n - 1) + [answers[n - 1].message]
  }

  /** The i-th reply is the message of the i-th answer. */
  lemma {:induction false} RepliesAt(answers: seq<Completion>, n: nat)
    requires n <= |answers|
    requires forall j :: 0 <= j < n ==> answers[j].Answered?
    ensures forall j :: 0 <= j < n ==> Replies(answers, n)[j] == answers[j].message
  {
    if n > 0 {
      RepliesAt(answers, n - 1);
    }
  }

  /** The texts of some turns, in order. */
  function Contents(ts: seq<Turn>): (vs: seq<string>)
    ensures |vs| == |ts|
  {
    if ts == [] then [] else Contents(ts[..|ts| - 1]) + [ts[|ts| - 1].content]
  }

  /** The i-th text is the content of the i-th turn. */
  lemma {:induction false} ContentsAt(ts: seq<Turn>)
    ensures forall j :: 0 <= j < |ts| ==> Contents(ts)[j] == ts[j].content
  {
    if ts != [] {
      ContentsAt(ts[..|ts| - 1]);
    }
  }

  /** The arbiter's result as a function of what the two personas answer. */
  function Arbitrate(numVerses: int, poetAnswers: seq<Completion>, criticAnswer: Completion, pick: nat): (r: Result<string, ArbiterError>)
    requires |poetAnswers| == RangeCount(numVerses)
    requires RangeCount(numVerses) > 0 ==> pick < RangeCount(numVerses)
    ensures r == Failure(PoetFailed) <==> FirstUnavailable(poetAnswers) < |poetAnswers|
    ensures r == Failure(CriticFailed) <==> FirstUnavailable(poetAnswers) == |poetAnswers| && criticAnswer.Unavailable?
    ensures r.Success? ==> exists j :: 0 <= j < |poetAnswers| && poetAnswers[j] == Answered(Turn(poetAnswers[j].message.role, r.value))
  {
    if FirstUnavailable(poetAnswers) < |poetAnswers| then Failure(PoetFailed)
    else if criticAnswer.Unavailable? then Failure(CriticFailed)
    else
      var verses := Contents(Replies(poetAnswers, |poetAnswers|));
      RepliesAt(poetAnswers, |poetAnswers|);
      ContentsAt(Replies(poetAnswers, |poetAnswers|));
      var r := Choose(verses, criticAnswer.message.content, pick);
      assert r.Success? ==> exists j :: 0 <= j < |verses| && verses[j] == r.value;
      r
  }

  /** The poet's transcript after one arbitration. */
  function PoetTranscript(systemPrompt: string, basePrompt: string, theme: string, poetAnswers: seq<Completion>): (t: seq<Turn>)
    ensures |t| >= 1 && t[0] == Turn(System, systemPrompt)
    ensures FirstUnavailable(poetAnswers) == |poetAnswers| ==> |t| == 1 + 2 * |poetAnswers|
  {
    var k := FirstUnavailable(poetAnswers);
    [Turn(System, systemPrompt)]
      + Exchanges(PoetMessage(basePrompt, theme), Replies(poetAnswers, k))
      + (if k < |poetAnswers| then [Turn(User, PoetMessage(basePrompt, theme))] else [])
  }

  /** The critic's transcript after one arbitration: consulted only when every poet answer arrived. */
  function CriticTranscript(systemPrompt: string, theme: string, poetAnswers: seq<Completion>, criticAnswer: Completion): (t: seq<Turn>)
    ensures |t| >= 1 && t[0] == Turn(System, systemPrompt)
  {
    if FirstUnavailable(poetAnswers) < |poetAnswers| then [Turn(System, systemPrompt)]
    else
      [Turn(System, systemPrompt), Turn(User, CriticMessage(theme, Contents(Replies(poetAnswers, |poetAnswers|))))]
        + (if criticAnswer.Answered? then [criticAnswer.message] else [])
  }

  /** Both transcripts open with the persona's system turn, and the critic is consulted exactly when every poet request was answered. */
  lemma TranscriptsOpenWithSystem(poetPrompt: string, criticPrompt: string, basePrompt: string, theme: string,
                                  poetAnswers: seq<Completion>, criticAnswer: Completion)
    ensures var t := PoetTranscript(poetPrompt, basePrompt, theme, poetAnswers);
      |t| >= 1 && t[0] == Turn(System, poetPrompt)
    ensures var t := CriticTranscript(criticPrompt, theme, poetAnswers, criticAnswer);
      |t| >= 1 && t[0] == Turn(System, criticPrompt)
    ensures |CriticTranscript(criticPrompt, theme, poetAnswers, criticAnswer)| > 1 <==> FirstUnavailable(poetAnswers) == |poetAnswers|
  {
  }

  /**
   * The poet's transcript after an arbitration: the system turn, then for
   * each answered request the poet message and the answer; when every
   * request was answered it holds 1 + 2 * numVerses turns.
   */
  lemma PoetTranscriptShape(systemPrompt: string, basePrompt: string, theme: string, poetAnswers: seq<Completion>)
    ensures var t := PoetTranscript(systemPrompt, basePrompt, theme, poetAnswers);
      var k := FirstUnavailable(poetAnswers);
      && |t| == 1 + 2 * k + (if k < |poetAnswers| then 1 else 0)
      && (forall i :: 0 <= i < k ==> t[1 + 2 * i] == Turn(User, PoetMessage(basePrompt, theme)))
      && (forall i :: 0 <= i < k ==> t[2 + 2 * i] == poetAnswers[i].message)
      && (k < |poetAnswers| ==> t[|t| - 1] == Turn(User, PoetMessage(basePrompt, theme)))
  {
    var k := FirstUnavailable(poetAnswers);
    var message := PoetMessage(basePrompt, theme);
    var replies := Replies(poetAnswers, k);
    RepliesAt(poetAnswers, k);
    ExchangesAt(message, replies);
    InterleavedShape(PoetTranscript(systemPrompt, basePrompt, theme, poetAnswers), Turn(System, systemPrompt),
                     Exchanges(message, replies), if k < |poetAnswers| then [Turn(User, message)] else [], message, replies);
  }

  /** A system turn, then question/answer pairs, then a tail: where each pair sits. */
  lemma InterleavedShape(t: seq<Turn>, system: Turn, ex: seq<Turn>, tail: seq<Turn>, message: string, replies: seq<Turn>)
    requires t == [system] + ex + tail
    requires |ex| == 2 * |replies|
    requires forall i :: 0 <= i < |replies| ==> ex[2 * i] == Turn(User, message)
    requires forall i :: 0 <= i < |replies| ==> ex[2 * i + 1] == replies[i]
    ensures |t| == 1 + 2 * |replies| + |tail|
    ensures forall i :: 0 <= i < |replies| ==> t[1 + 2 * i] == Turn(User, message) && t[2 + 2 * i] == replies[i]
    ensures |tail| == 1 ==> t[|t| - 1] == tail[0]
  {
    forall i | 0 <= i < |replies|
      ensures t[1 + 2 * i] == Turn(User, message) && t[2 + 2 * i] == replies[i]
    {
      assert t[1 + 2 * i] == ex[2 * i];
      assert t[2 + 2 * i] == ex[2 * i + 1];
    }
  }

  /** The first failed answer is the one after a run of answered ones. */
  lemma FirstUnavailableAt(answers: seq<Completion>, i: nat)
    requires i <= |answers|
    requires forall j :: 0 <= j < i ==> answers[j].Answered?
    requires i < |answers| ==> answers[i].Unavailable?
    ensures FirstUnavailable(answers) == i
  {
  }

  /** One more answered request: the replies, their contents and the poet's transcript each grow by it. */
  lemma AnsweredRound(before: seq<Turn>, answers: seq<Completion>, i: nat, message: string)
    requires i < |answers| && forall j :: 0 <= j <= i ==> answers[j].Answered?
    ensures Replies(answers, i + 1) == Replies(answers, i) + [answers[i].message]
    ensures before + Exchanges(message, Replies(answers, i)) + [Turn(User, message), answers[i].message]
      == before + Exchanges(message, Replies(answers, i + 1))
    ensures Contents(Replies(answers, i + 1)) == Contents(Replies(answers, i)) + [answers[i].message.content]
  {
    var replies := Replies(answers, i);
    var reply := answers[i].message;
    ExchangesSnoc(message, replies, reply);
    assert (replies + [reply])[..|replies|] == replies;
  }

  /**
   * The poet's rounds: the same message once per expected answer on one
   * growing transcript, stopping at the first request that fails.
   */
  method AskPoet(poet: ChatCharacter, message: string, answers: seq<Completion>)
    returns (verses: Option<seq<string>>, ghost k: nat)
    modifies poet
    ensures k <= |answers| && (forall j :: 0 <= j < k ==> answers[j].Answered?)
    ensures k < |answers| ==> answers[k].Unavailable?
    ensures verses.Some? <==> k == |answers|
    ensures verses.Some? ==> verses.value == Contents(Replies(answers, k))
    ensures poet.messages == old(poet.messages) + Exchanges(message, Replies(answers, k))
      + (if k < |answers| then [Turn(User, message)] else [])
  {
    var vs: seq<string> := [];
    ghost var replies: seq<Turn> := [];
    var i := 0;
    while i < |answers|
      invariant 0 <= i <= |answers|
      invariant forall j :: 0 <= j < i ==> answers[j].Answered?
      invariant replies == Replies(answers, i)
      invariant vs == Contents(replies)
      invariant poet.messages == old(poet.messages) + Exchanges(message, replies)
    {
      var reply := poet.GetChatResponse(message, answers[i]);
      if reply.Failure? {
        return None, i;
      }
      AnsweredRound(old(poet.messages), answers, i, message);
      replies := replies + [answers[i].message];
      vs := vs + [reply.value];
      i := i + 1;
    }
    assert poet.messages == old(poet.messages) + Exchanges(message, replies) + [];
    verses, k := Some(vs), i;
  }

  /**
   * get_best_verse: resets both personas, asks the poet once per candidate on
   * the same growing transcript, then asks the critic once.
   */
  method GetBestVerse(poet: ChatCharacter, critic: ChatCharacter, basePrompt: string, theme: string, numVerses: int,
                      poetAnswers: seq<Completion>, criticAnswer: Completion, pick: nat)
    returns (r: Result<string, ArbiterError>)
    requires poet != critic
    requires |poetAnswers| == RangeCount(numVerses)
    requires RangeCount(numVerses) > 0 ==> pick < RangeCount(numVerses)
    modifies poet, critic
    ensures r == Arbitrate(numVerses, poetAnswers, criticAnswer, pick)
    ensures poet.messages == PoetTranscript(poet.systemPrompt, basePrompt, theme, poetAnswers)
    ensures critic.messages == CriticTranscript(critic.systemPrompt, theme, poetAnswers, criticAnswer)
  {
    poet.Reset();
    critic.Reset();
    var verses, k := AskPoet(poet, PoetMessage(basePrompt, theme), poetAnswers);
    FirstUnavailableAt(poetAnswers, k);
    if verses.None? {
      return Failure(PoetFailed);
    }
    var criticMessage := BuildCriticMessage(theme, verses.value);
    var verdict := critic.GetChatResponse(criticMessage, criticAnswer);
    if verdict.Failure? {
      return Failure(CriticFailed);
    }
    r := Choose(verses.value, verdict.value, pick);
  }
}

=== FILE: wrappers.dfy ===
/** Optional values and results with an error, shared by every module of the model. */
module Wrappers {

  datatype Option<+T> = None | Some(value: T)

  datatype Result<+T, +E> = Success(value: T) | Failure(error: E)

  /** A byte of audio or image data. */
  newtype byte = x: int | 0 <= x < 256

  /** Joining sequences is associative. */
  lemma AppendAssoc<T>(a: seq<T>, b: seq<T>, c: seq<T>)
    ensures a + b + c == a + (b + c)
  {
  }
}
